=== FILE: README.md ===
# toy_mcts in Dafny

A model of the Monte Carlo Tree Search engine of `toy_mcts` and of the
tic-tac-toe game it plays, with proofs about both.

The model covers:

- the game state: `take_action`, `possible_actions`, `get_winner`,
  `is_terminal`, `simulate_random_action`, and the block-then-win heuristic
  `simulate_action`;
- the search tree `MCTSNode`: construction, `value`, `expand`, `rollout`,
  `backpropagate`, and the delegations `is_terminal` and `possible_actions`;
- the agent `MCTSAgent`: `selection`, `selection_policy`, `step` and
  `run_mcts`.

Modules:

- `Wrappers` (`wrappers.dfy`): `Option` and `Result`.
- `TicTacToe` (`tictactoe.dfy`): the board and moves, the winner scan, and
  the heuristic.
  - The board is a row-major sequence of nine marks in {-1, 0, 1}. The
    mover is 1 or -1.
  - The winner and heuristic scans follow the original's order: row i,
    then column i, for i = 0, 1, 2; then the diagonal; then the
    anti-diagonal. Python's `x // 3` and `x or y` on integers are written
    out.
- `SearchTree` (`search_tree.dfy`): the tree of `MCTSNode`s.
  - The tree is an arena: a sequence of nodes linked by indices. Nodes are
    only ever appended, so an object reference becomes a stable index.
  - `results` becomes three counters. `wins` is `results[1]`: the
    rollout's outcome equals the node's own player to move. `draws` is
    `results[0]`; `losses` is `results[-1]`.
  - `action_counts` becomes the set `explored`. Its values are only ever 1,
    and only key membership is read.
  - Backpropagation is a pure function from tree to tree. It records the
    outcome on every node of the chain from the start node to the root.
- `TreeInvariants` (`tree_invariants.dfy`): what every tree the engine
  holds satisfies, with proofs that `expand` and `backpropagate` keep it:
  - parent and child links agree;
  - the three buckets sum to `visits`;
  - the children's visits together never exceed the parent's;
  - children and explored actions correspond one to one: every child
    holds the state after an explored action, every explored action has a
    child holding the state after it, no two children hold the same state,
    and only legal actions are explored;
  - each child is one legal move on from its parent;
  - between iterations, every non-root node has been visited.
- `Agent` (`agent.dfy`): `MCTSAgent`.
  - The UCT score of a child is a parameter `Score`, any function of the
    parent and child records. `selection_policy` takes the first child
    reaching the largest score (`np.argmax`).
  - `step` and `run_mcts` are methods with loops. Their contracts give the
    visit counts the loops produce.

Randomness is a parameter:

- `random.choice` over the legal moves picks index `pick % n` for a draw
  `pick`, which can be any natural number.
- A rollout takes a sequence of draws.
- `step` takes one sequence per iteration, and `run_mcts` one family per
  move.

Errors the original raises become `Err` or `None` values:

- selection on a terminal node;
- `value()` of an unvisited node;
- `argmax` over a node without children;
- `expand` with every legal action explored, whose loop (mcts.py:77-83)
  ends without returning a child, so the call yields `None`;
- a random move on a full board.

Behaviour of the code that its own comments or names do not suggest, and
which the model follows:

- `value()` adds draws to the numerator: wins + draws − losses
  (mcts.py:56), although the comment above it (mcts.py:55) says
  wins − losses.
- `selection_policy` calls `value()` on every child (mcts.py:40), and
  `value()` divides by the child's visits (mcts.py:56). An unvisited child
  therefore makes it raise.
- `step` returns the child `selection_policy` picks (mcts.py:27), the same
  choice that selection makes inside the search. It does not return the
  most visited child.
- `expand` returns `None` when every legal action is explored: its loop
  (mcts.py:77-83) finishes without reaching the `return`. Its docstring
  (mcts.py:70) only asks callers not to do this.
- `step` runs `range(itermax)` (mcts.py:22), so an `itermax` of 0 goes
  straight to `selection_policy` (mcts.py:27).

## Model

| member | source | states |
|---|---|---|
| TicTacToe.Opponent | tictactoe.py:44 | the next player is the negation of the mover, so it is again 1 or -1 |
| TicTacToe.TakeAction | tictactoe.py:47-50 | the mover's mark lands on the chosen cell, every other cell is kept, and the turn passes to the opponent |
| TicTacToe.PossibleActions | tictactoe.py:52-53 | an action is listed exactly when its cell is empty, and the list is in row-major order without repeats |
| TicTacToe.NoMoveIffFull | tictactoe.py:52-53 | there is no legal move exactly when no cell is empty |
| TicTacToe.TakeActionDistinct | tictactoe.py:47-50 | two different legal moves from one state lead to different states |
| TicTacToe.TakeActionRemovesAction | tictactoe.py:47-53 | playing a legal move removes exactly that move from the legal moves, one empty cell fewer |
| TicTacToe.SimulateRandomAction | tictactoe.py:40-45 | it fails exactly on a full board; otherwise the result is take_action of some legal move, with one empty cell fewer and the turn passed |
| TicTacToe.RandomActionReachesEveryMove | tictactoe.py:41 | every legal move is the outcome of some random draw |
| TicTacToe.CompleteOwner | tictactoe.py:57-58 | a line whose sum has absolute value 3 holds three equal marks, and its sum // 3 is that mark |
| TicTacToe.GetWinner | tictactoe.py:55-64 | no result exactly when some cell is empty and no line is complete; any reported value is -1, 0 or 1 |
| TicTacToe.TerminalIff | tictactoe.py:66-69 | a state is terminal exactly when a line is complete or the board is full, and a non-terminal state has a legal move |
| TicTacToe.IsTerminal | tictactoe.py:66-69 | no contract of its own: TerminalIff states when a state is terminal |
| TicTacToe.CompleteRowReportsOwner | tictactoe.py:56-58 | a complete row found first by the scan is reported as its owner's win |
| TicTacToe.CompleteColumnReport | tictactoe.py:56-58 | a complete column found first is reported as its owner, unless the row of the same index sums to -1, which reports -1 |
| TicTacToe.CompleteDiagonalReport | tictactoe.py:59-60 | a complete diagonal reports its owner; a complete anti-diagonal reports its owner unless the diagonal sums to -1 |
| TicTacToe.ColumnWinMisreported | tictactoe.py:58 | on a board reachable in play, X owns column 0 and get_winner reports -1 |
| TicTacToe.IntendedWinner | tictactoe.py:55-64 | the corrected winner decides a game exactly when get_winner does, and reports -1, 0 or 1 |
| TicTacToe.IntendedWinnerReportsOwner | tictactoe.py:56-60 | the corrected winner reports the owner of the first complete line in scan order |
| TicTacToe.IntendedAgreesWithoutLines | tictactoe.py:61-64 | with no complete line, both versions report a draw on a full board and no result otherwise |
| TicTacToe.ThreatFrom | tictactoe.py:17-35 | the heuristic acts on the first line, in scan order, whose sum is the target |
| TicTacToe.FirstZero | tictactoe.py:19 | `np.where(v == 0)[0][0]` is the position of the first zero |
| TicTacToe.TwoInLineHasGap | tictactoe.py:18-19 | a line summing to 2 or -2 has exactly one empty cell, so the heuristic's `[0][0]` never fails |
| TicTacToe.MoveFor | tictactoe.py:19-35 | no contract of its own: MoveForFillsGap gives its cell on a row, column or diagonal, AntiMoveIsDiagonalCell on the anti-diagonal |
| TicTacToe.Respond | tictactoe.py:15-37 | the heuristic fails only on a full board and always plays one take_action; the corrected variant plays a legal move |
| TicTacToe.RespondOn | tictactoe.py:19-35 | a line of two always yields a move, which the corrected variant takes on an empty cell |
| TicTacToe.SimulateAction | tictactoe.py:15-37 | fails exactly on a full board; otherwise one take_action with the turn passed |
| TicTacToe.SimulateActionBranches | tictactoe.py:15-37 | the first opponent line of two in scan order is answered with `MoveFor`'s cell for that line; failing that, the first own line of two in scan order is answered the same way; failing both, the move is exactly simulate_random_action's with the same draw |
| TicTacToe.AntiMoveIsDiagonalCell | tictactoe.py:24-25 | on any board whose anti-diagonal holds two of a kind, the heuristic writes the main-diagonal cell (k, k) for the gap's position k, which is the gap only when k is 1 |
| TicTacToe.MoveForFillsGap | tictactoe.py:17-33 | in a row, column or diagonal of two, the heuristic's cell is the line's empty cell, and filling it leaves no gap |
| TicTacToe.SimulateActionBlocks | tictactoe.py:16-23 | when the first opponent line of two in scan order is a row, column or diagonal, simulate_action plays its empty cell, leaving that line with the opponent's single mark and no gap; a later opponent line of two can stay open |
| TicTacToe.SimulateActionWins | tictactoe.py:26-33 | with no opponent line of two, and the first own line of two in scan order a row, column or diagonal, simulate_action completes that line and the game is over |
| TicTacToe.AntiThreatIsFirst | tictactoe.py:17-25 | in the example position, the first opponent line of two is the anti-diagonal |
| TicTacToe.AntiMoveIsCorner | tictactoe.py:25 | the heuristic's anti-diagonal cell in the example position is (0,0), not the gap (0,2) |
| TicTacToe.AntiDiagonalBlockMisses | tictactoe.py:24-25 | in the example position, simulate_action writes over the opponent's mark at (0,0) and leaves the threat open |
| TicTacToe.IntendedMoveFillsGap | tictactoe.py:24-25 | the corrected move fills the empty cell of every line of two, the anti-diagonal included |
| TicTacToe.IntendedSimulateAction | tictactoe.py:15-37 | the corrected heuristic fails exactly on a full board and otherwise always plays a legal move |
| TicTacToe.IntendedSimulateActionBlocks | tictactoe.py:16-25 | the corrected heuristic blocks the first opponent line of two in scan order at its gap, the anti-diagonal included; a later opponent line of two can stay open |
| TicTacToe.IntendedSimulateActionWins | tictactoe.py:26-35 | with no opponent line of two, the corrected heuristic completes the first own line of two in scan order, the anti-diagonal included, and ends the game |
| SearchTree.Value | mcts.py:54-56 | value() fails exactly on an unvisited node; otherwise its denominator is the visit count |
| SearchTree.NewNode | mcts.py:46-52 | no contract of its own: NewTreeValid states that a fresh node forms a valid tree |
| SearchTree.Record | mcts.py:106-113 | no contract of its own: RecordBuckets and RecordValue state what one recorded outcome does to a node |
| SearchTree.RecordBuckets | mcts.py:106-113 | one visit and exactly one bucket per node: a draw for 0, a win when the outcome is this node's mover, a loss otherwise |
| SearchTree.RecordValue | mcts.py:54-56 | a draw raises value()'s numerator like a win; only a loss lowers it |
| SearchTree.Backpropagate | mcts.py:100-116 | every node on the chain from the start node to its root is recorded once, and every other node is unchanged |
| SearchTree.BackpropagateGrows | mcts.py:100-116 | backpropagation changes no parent, state, children or explored action |
| SearchTree.FirstUnexploredFrom | mcts.py:77-78 | expand takes the first legal action not yet in action_counts |
| SearchTree.AddChild | mcts.py:79-83 | the new child holds the state after the action, points to its parent and is appended last; nothing else changes |
| SearchTree.Expand | mcts.py:68-83 | no child exactly when every legal action is explored; otherwise the first unexplored action gets a new last child |
| SearchTree.RolloutFrom | mcts.py:93-96 | random moves end in a terminal state; a terminal start is returned as is |
| SearchTree.Rollout | mcts.py:85-98 | the outcome is -1, 0 or 1, and from a terminal state it is that state's winner |
| SearchTree.RolloutPlaysLegalMoves | mcts.py:95-96 | each rollout move is a legal move of the current state |
| TreeInvariants.NewTreeValid | mcts.py:46-52 | a fresh node forms a valid tree |
| TreeInvariants.ChildHasFewerEmptyCells | mcts.py:80-81 | a child's state is one legal move on from its parent, with one empty cell fewer and the other player to move |
| TreeInvariants.UnexploredIff | mcts.py:76-83 | children never exceed legal actions; an unexplored action remains exactly when there are fewer children than actions |
| TreeInvariants.ExpandableIff | mcts.py:33-34 | expand succeeds exactly when len(children) < len(possible_actions()) |
| TreeInvariants.ChildVisitsAfterPath | mcts.py:115-116 | backpropagation raises a node's children's total visits by one exactly when the node is a strict ancestor of the start |
| TreeInvariants.ChildVisitsBounded | mcts.py:106-116 | no node has more visits than its parent |
| TreeInvariants.NoActionExpandedTwice | mcts.py:76-83 | in a well-formed tree no action has two children: two children holding the state after the same action are the same child |
| TreeInvariants.AddChildMatch | mcts.py:78-81 | adding a child for a legal, unexplored action keeps children and explored actions in one-to-one correspondence at every node |
| TreeInvariants.ExpandPreserves | mcts.py:68-83 | expansion keeps the tree well formed, including the one-to-one match of children and explored actions, and all visit counts; the new node is an unvisited child of the expanded node |
| TreeInvariants.BackpropagatePreserves | mcts.py:100-116 | backpropagation keeps the tree well formed: +1 visit for exactly the start's ancestors, +1 to the children's total of its strict ancestors, and the start stays visited |
| Agent.Argmax | mcts.py:41 | the chosen position holds the largest value, and every earlier position holds a strictly smaller one |
| Agent.ChildScores | mcts.py:40 | one score per child, in child order |
| Agent.SelectionPolicy | mcts.py:38-41 | fails with ZeroDivision exactly when some child is unvisited and with EmptyArgmax exactly when there are no children; it succeeds exactly when the node has children and all are visited, and then returns the child at the first position of the largest score |
| Agent.Selection | mcts.py:29-36 | fails exactly on a terminal node; expands exactly when children < legal actions; otherwise returns, with the tree unchanged, exactly selection_policy's child or its error |
| Agent.SelectionOnValid | mcts.py:29-36 | on a valid tree, selection fails only on a terminal node and returns a child, keeping the tree well formed and every count |
| Agent.Iteration | mcts.py:23-25 | no contract of its own: IterationEffect and IterationFrame state what one iteration changes and what it keeps |
| Agent.SelectionFrame | mcts.py:29-36 | selection changes no node but the one it starts from, and adds at most one node, whose parent is that node |
| Agent.BackpropagateAfterSelection | mcts.py:24-25 | backpropagating from the selected child adds a visit to the start, to each of its ancestors, and to its children's total |
| Agent.BackpropagateFromChildFrame | mcts.py:100-116 | backpropagating from a child of the start records nothing on a node that is neither that child nor an ancestor of the start, so every other child of the start is left alone |
| Agent.IterationCounts | mcts.py:22-25 | one iteration fails exactly on a terminal start; otherwise it adds one visit to the start, its ancestors and its children's total, and keeps the tree valid |
| Agent.IterationEffect | mcts.py:22-25 | one iteration fails exactly on a terminal start; otherwise it adds one visit to the start, its ancestors and its children's total, every other node, apart from the start's children, keeps its record, no node but the start gains children or explored actions, and any new node is a child of the start |
| Agent.IterationFrame | mcts.py:23-25 | one iteration leaves every node other than the start, its ancestors and its children exactly as it was |
| Agent.IterationShape | mcts.py:24-36 | one iteration gives no node but the start new children or explored actions, and any node it adds is a child of the start |
| Agent.OnlyStartGrowsTrans | mcts.py:22-25 | successive iterations together still grow only the start |
| Agent.RestUnchangedTrans | mcts.py:22-25 | successive iterations together still leave every node away from the start as it was |
| Agent.StepDoneNext | mcts.py:22-25 | i iterations followed by one more are i + 1 iterations |
| Agent.FinalChoice | mcts.py:27 | after the iterations, selection_policy fails only on a node without children and returns a child |
| Agent.Step | mcts.py:17-27 | step fails exactly on a terminal start, or with itermax 0 on a node without children; otherwise the start, each ancestor and the children's total gain itermax visits, every node that is neither the start, an ancestor nor a child of it keeps its record, only the start gains children or explored actions and every new node is its child, and the result is selection_policy's child on the grown tree, which with itermax 0 is the tree given |
| Agent.RunDoneNext | mcts.py:12-13 | each move descends to a child, with one empty cell fewer and itermax more root visits |
| Agent.Descend | mcts.py:12-13 | with itermax > 0 one move of run_mcts succeeds on a non-terminal node and descends to a child with fewer empty cells, the root gaining itermax visits |
| Agent.RunMcts | mcts.py:10-15 | with itermax > 0 play reaches a terminal descendant of the root; the root gains itermax visits per move played |

## Left out

- The UCT formula: floating point, `np.log`, `np.sqrt` and C = 1.4. The score is an abstract parameter, so NaN and infinities are not modelled.
- SearchTree.Value: the division is kept as an exact fraction instead of a float quotient.
- `random.choice` and the random source: draws are parameters, and nothing is said about their distribution.
- SearchTree.Rollout: reports the corrected winner. Where get_winner misreports a column or anti-diagonal win (see Findings), the original backpropagates -1.
- The `winner` field cached in `GameState.__init__`: the board never changes after construction, so the model computes it on demand.
- The exception types and messages. `selection` formats `self.state`, which `MCTSAgent` lacks, so the original raises an attribute error instead of the intended `ValueError`. The model keeps one error value per failure.
- The actions numpy would accept beyond the grid, such as negative indices that wrap around. Actions are restricted to rows and columns 0..2.
- Python's truthiness test on the parent: `MCTSNode` defines no `__bool__`, so the model's "has a parent" test is equivalent.
- `is_leaf`, `print_board`, the `MCTSAgent` constructor and `utils.py`: no modelled operation calls them, or they only print.
- The unused local `mcts_agent` in `rollout`.
- Agent.RunMcts: returns the grown tree and the final node instead of the root object. The root's identity is its index.
- The engine is specific to tic-tac-toe. The original is written against the game's methods, but tic-tac-toe is the only game it has.
- Sums of board lines: numpy integer overflow cannot happen for three cells of -1..1, so no width is modelled.

## Findings

| source | as written | input that shows it | evidently intended | confidence | as-written member | corrected member |
|---|---|---|---|---|---|---|
| tictactoe.py:58 | `row // 3 or col // 3` returns the row's floored sum whenever it is nonzero, and a row summing to -1 floors to -1; line 60 does the same for the two diagonals | board `X O O / X . . / X . .`: X owns column 0, the row sums to -1, and get_winner reports -1 | report the owner of the complete line | high; not executed | TicTacToe.ColumnWinMisreported | TicTacToe.IntendedWinnerReportsOwner |
| tictactoe.py:24-25 | the anti-diagonal block (and the win at lines 34-35) writes `(k, k)`, where `k` is the gap's position along the anti-diagonal | board `O X . / X O . / O . X`, X to move: O threatens the anti-diagonal with gap (0,2), and X's mark is written at (0,0) over O's | write `(k, 2 - k)`, the gap itself | high; not executed | TicTacToe.AntiDiagonalBlockMisses | TicTacToe.IntendedSimulateActionBlocks |

=== FILE: agent.dfy ===
/** MCTSAgent: one-step selection, the argmax selection policy, a search step
    of `itermax` iterations, and the play-out loop over a whole game. */
module Agent {
  import opened Wrappers
  import opened TicTacToe
  import opened SearchTree
  import opened TreeInvariants

  /** The UCT score of a child as seen from its parent. The original computes
      it in floating point from value(), the parent's visits and the child's
      visits; here it is any function of the two node records. */
  type Score = (Node, Node) -> real

  /** np.argmax: the first position holding the largest value. */
  function Argmax(v: seq<real>): (k: nat)
    requires |v| > 0
    ensures k < |v|
    ensures forall j :: 0 <= j < |v| ==> v[j] <= v[k]
    ensures forall j :: 0 <= j < k ==> v[j] < v[k]
  {
    if |v| == 1 then 0
    else
      var k := Argmax(v[..|v| - 1]);
      if v[|v| - 1] > v[k] then |v| - 1 else k
  }

  predicate ChildrenInTree(t: Tree, id: nat)
    requires id < |t.nodes|
  {
    forall j :: 0 <= j < |t.nodes[id].children| ==> t.nodes[id].children[j] < |t.nodes|
  }

  /** The scores of `id`'s children, in child order. */
  function ChildScores(t: Tree, id: nat, score: Score): (v: seq<real>)
    requires id < |t.nodes| && ChildrenInTree(t, id)
    ensures |v| == |t.nodes[id].children|
    ensures forall j :: 0 <= j < |v| ==> v[j] == score(t.nodes[id], t.nodes[t.nodes[id].children[j]])
  {
    var cs := t.nodes[id].children;
    seq(|cs|, j requires 0 <= j < |cs| => score(t.nodes[id], t.nodes[cs[j]]))
  }

  /** selection_policy: the child at the first position reaching the largest
      score. value() raises first if some child has no visits; argmax raises
      on a node without children. */
  function SelectionPolicy(t: Tree, id: nat, score: Score): (r: Result<nat, Error>)
    requires id < |t.nodes| && ChildrenInTree(t, id)
    ensures var cs := t.nodes[id].children;
      r == Err(ZeroDivision) <==> exists j :: 0 <= j < |cs| && t.nodes[cs[j]].visits == 0
    ensures r == Err(EmptyArgmax) <==> |t.nodes[id].children| == 0
    ensures var cs := t.nodes[id].children;
      r.Ok? <==> |cs| > 0 && forall j :: 0 <= j < |cs| ==> t.nodes[cs[j]].visits > 0
    ensures r.Ok? ==>
      var cs := t.nodes[id].children;
      var v := ChildScores(t, id, score);
      exists k :: 0 <= k < |cs| && r.value == cs[k]
        && (forall j :: 0 <= j < |cs| ==> v[j] <= v[k])
        && (forall j :: 0 <= j < k ==> v[j] < v[k])
  {
    var cs := t.nodes[id].children;
    if exists j :: 0 <= j < |cs| && t.nodes[cs[j]].visits == 0 then Err(ZeroDivision)
    else if |cs| == 0 then Err(EmptyArgmax)
    else Ok(cs[Argmax(ChildScores(t, id, score))])
  }

  /** selection(node): raise on a terminal node; expand while some legal action
      has no child yet; otherwise pick an existing child by selection_policy. */
  function Selection(t: Tree, id: nat, score: Score): (r: Result<(Tree, nat), Error>)
    requires WellFormed(t) && id < |t.nodes|
    ensures ChildrenInTree(t, id)
    ensures IsTerminal(t.nodes[id].state) <==> r == Err(TerminalSelection)
    ensures !IsTerminal(t.nodes[id].state)
              && |t.nodes[id].children| < |PossibleActions(t.nodes[id].state.board)| ==>
              Expand(t, id).Some? && r == Ok(Expand(t, id).value)
    ensures |t.nodes[id].children| >= |PossibleActions(t.nodes[id].state.board)| && r.Ok? ==>
              r.value.0 == t && r.value.1 in t.nodes[id].children
    ensures !IsTerminal(t.nodes[id].state)
              && |t.nodes[id].children| >= |PossibleActions(t.nodes[id].state.board)| ==>
              r == (match SelectionPolicy(t, id, score)
                    case Ok(c) => Ok((t, c))
                    case Err(e) => Err(e))
  {
    ExpandableIff(t, id);
    assert NodeOk(t, id) && LinksOk(t, id);
    if IsTerminal(t.nodes[id].state) then Err(TerminalSelection)
    else if |t.nodes[id].children| < |PossibleActions(t.nodes[id].state.board)| then
      Ok(Expand(t, id).value)
    else
      match SelectionPolicy(t, id, score)
      case Ok(c) => Ok((t, c))
      case Err(e) => Err(e)
  }

  /** On the trees the engine holds, selection fails only on a terminal node,
      and otherwise returns a child of the node: a fresh unvisited one, or an
      existing one with the tree unchanged. Either way the tree stays well
      formed and no count moves. */
  lemma SelectionOnValid(t: Tree, id: nat, score: Score)
    requires Valid(t) && id < |t.nodes|
    ensures Selection(t, id, score).Err? <==> IsTerminal(t.nodes[id].state)
    ensures Selection(t, id, score).Ok? ==>
      var (t1, c) := Selection(t, id, score).value;
      && WellFormed(t1) && Grows(t, t1) && VisitedExcept(t1, c)
      && c < |t1.nodes| && t1.nodes[c].parent == Some(id) && c in t1.nodes[id].children
      && (forall i :: 0 <= i < |t.nodes| ==> t1.nodes[i].visits == t.nodes[i].visits)
      && (forall i :: 0 <= i < |t.nodes| ==> ChildVisits(t1, i) == ChildVisits(t, i))
  {
    var n := t.nodes[id];
    assert NodeOk(t, id) && LinksOk(t, id);
    ExpandableIff(t, id);
    if !IsTerminal(n.state) {
      if |n.children| < |PossibleActions(n.state.board)| {
        ExpandPreserves(t, id);
      } else {
        TerminalIff(n.state);
        NoMoveIffFull(n.state.board);
        assert |n.children| > 0;
        forall j | 0 <= j < |n.children|
          ensures t.nodes[n.children[j]].visits >= 1
        {
          assert t.nodes[n.children[j]].parent == Some(id);
        }
        var c := Selection(t, id, score).value.1;
        var k :| 0 <= k < |n.children| && n.children[k] == c;
        assert t.nodes[c].parent == Some(id);
      }
    }
  }

  /** One iteration of step(): select from `start`, roll out from the selected
      node and backpropagate the outcome from it. */
  function Iteration(t: Tree, start: nat, score: Score, draw: Draws): (r: Result<Tree, Error>)
    requires Valid(t) && start < |t.nodes|
  {
    SelectionOnValid(t, start, score);
    match Selection(t, start, score)
    case Err(e) => Err(e)
    case Ok((t1, c)) =>
      WellFormedParents(t1);
      Ok(Backpropagate(t1, c, Rollout(t1.nodes[c].state, draw)))
  }

  /** The selected child sits just below `start`, so the chain from it to the
      root passes through every ancestor of `start`. */
  lemma AncestorOfChild(t: Tree, start: nat, c: nat)
    requires WellFormed(t) && c < |t.nodes| && t.nodes[c].parent == Some(start)
    ensures forall k: nat :: IsAncestor(t, k, start) ==> IsAncestor(t, k, c)
    ensures IsAncestor(t, start, c) && start != c
  {
    assert NodeOk(t, c);
  }

  /** Backpropagating from the child selection returned: one more visit for
      `start` and each of its ancestors and for `start`'s children together. */
  lemma BackpropagateAfterSelection(t: Tree, t1: Tree, start: nat, c: nat, w: int)
    requires Valid(t) && start < |t.nodes|
    requires WellFormed(t1) && Grows(t, t1) && VisitedExcept(t1, c)
    requires c < |t1.nodes| && t1.nodes[c].parent == Some(start) && c in t1.nodes[start].children
    requires forall i :: 0 <= i < |t.nodes| ==> t1.nodes[i].visits == t.nodes[i].visits
    requires ChildVisits(t1, start) == ChildVisits(t, start)
    ensures ParentsPrecede(t1)
    ensures var t' := Backpropagate(t1, c, w);
      && Valid(t') && Grows(t, t')
      && (forall k :: 0 <= k < |t.nodes| && IsAncestor(t, k, start) ==>
            t'.nodes[k].visits == t.nodes[k].visits + 1)
      && ChildVisits(t', start) == ChildVisits(t, start) + 1
      && |t'.nodes[start].children| > 0
  {
    BackpropagatePreserves(t1, c, w);
    var t' := Backpropagate(t1, c, w);
    AncestorFrameAll(t, t1);
    AncestorOfChild(t1, start, c);
    assert c in t'.nodes[start].children;
  }

  /** Every node of `t` other than `start`, its ancestors and its children
      keeps its whole record in `t'`. */
  predicate RestUnchanged(t: Tree, t': Tree, start: nat)
  {
    && |t.nodes| <= |t'.nodes|
    && forall k :: 0 <= k < |t.nodes| && !IsAncestor(t, k, start) && t.nodes[k].parent != Some(start) ==>
         t'.nodes[k] == t.nodes[k]
  }

  /** Selection changes no node but `id`: it keeps the tree, or appends a
      child of `id`. */
  lemma SelectionFrame(t: Tree, id: nat, score: Score)
    requires WellFormed(t) && id < |t.nodes|
    ensures Selection(t, id, score).Ok? ==>
      var t1 := Selection(t, id, score).value.0;
      && |t.nodes| <= |t1.nodes| <= |t.nodes| + 1
      && (forall k :: 0 <= k < |t.nodes| && k != id ==> t1.nodes[k] == t.nodes[k])
      && (forall k :: |t.nodes| <= k < |t1.nodes| ==> t1.nodes[k].parent == Some(id))
  {
    ExpandableIff(t, id);
  }

  /** Backpropagating from a child of `start` records nothing on a node of
      `t` that is neither that child nor an ancestor of `start`; in
      particular every other child of `start` is left alone. */
  lemma BackpropagateFromChildFrame(t: Tree, t1: Tree, start: nat, c: nat, w: int)
    requires WellFormed(t1) && Grows(t, t1) && start < |t.nodes|
    requires c < |t1.nodes| && t1.nodes[c].parent == Some(start)
    ensures ParentsPrecede(t1)
    ensures forall k :: 0 <= k < |t.nodes| && !IsAncestor(t, k, start) && k != c ==>
      Backpropagate(t1, c, w).nodes[k] == t1.nodes[k]
    ensures forall k :: 0 <= k < |t.nodes| && !IsAncestor(t, k, start) && t.nodes[k].parent != Some(start) ==>
      Backpropagate(t1, c, w).nodes[k] == t1.nodes[k]
  {
    WellFormedParents(t1);
    AncestorFrameAll(t, t1);
    assert NodeOk(t1, c);
    forall k | 0 <= k < |t.nodes| && !IsAncestor(t, k, start) && k != c
      ensures !IsAncestor(t1, k, c)
    {
    }
    forall k | 0 <= k < |t.nodes| && t.nodes[k].parent != Some(start)
      ensures k != c
    {
      assert t1.nodes[k].parent == t.nodes[k].parent;
    }
  }

  /** One iteration leaves every node away from `start` as it was: only
      `start`, its ancestors, one of its children and new nodes change. */
  lemma IterationFrame(t: Tree, start: nat, score: Score, draw: Draws)
    requires Valid(t) && start < |t.nodes|
    ensures Iteration(t, start, score, draw).Ok? ==>
      RestUnchanged(t, Iteration(t, start, score, draw).value, start)
  {
    SelectionOnValid(t, start, score);
    SelectionFrame(t, start, score);
    if !IsTerminal(t.nodes[start].state) {
      var (t1, c) := Selection(t, start, score).value;
      BackpropagateFromChildFrame(t, t1, start, c, Rollout(t1.nodes[c].state, draw));
    }
  }

  /** Two runs that each leave the rest unchanged leave it unchanged together:
      the first keeps the parent links, so "away from `start`" means the same
      in both. */
  lemma RestUnchangedTrans(t: Tree, cur: Tree, t': Tree, start: nat)
    requires Grows(t, cur) && start < |t.nodes|
    requires RestUnchanged(t, cur, start) && RestUnchanged(cur, t', start)
    ensures RestUnchanged(t, t', start)
  {
    AncestorFrameAll(t, cur);
  }

  /** Only `start` gains children or explored actions: every other node of
      `t` keeps both, and every node added since `t` is a child of `start`. */
  predicate OnlyStartGrows(t: Tree, t': Tree, start: nat)
  {
    && |t.nodes| <= |t'.nodes|
    && (forall k :: 0 <= k < |t.nodes| && k != start ==>
          t'.nodes[k].children == t.nodes[k].children && t'.nodes[k].explored == t.nodes[k].explored)
    && (forall k :: |t.nodes| <= k < |t'.nodes| ==> t'.nodes[k].parent == Some(start))
  }

  /** Selection goes one level deep: an iteration expands nothing but
      `start`, and the node it may add is a child of `start`. */
  lemma IterationShape(t: Tree, start: nat, score: Score, draw: Draws)
    requires Valid(t) && start < |t.nodes|
    ensures Iteration(t, start, score, draw).Ok? ==>
      var t' := Iteration(t, start, score, draw).value;
      Grows(t, t') && OnlyStartGrows(t, t', start)
  {
    SelectionOnValid(t, start, score);
    SelectionFrame(t, start, score);
    if !IsTerminal(t.nodes[start].state) {
      var (t1, c) := Selection(t, start, score).value;
      WellFormedParents(t1);
      BackpropagateGrows(t1, c, Rollout(t1.nodes[c].state, draw));
    }
  }

  /** Successive iterations from `start` still grow nothing but `start`. */
  lemma OnlyStartGrowsTrans(t: Tree, cur: Tree, t': Tree, start: nat)
    requires Grows(cur, t')
    requires OnlyStartGrows(t, cur, start) && OnlyStartGrows(cur, t', start)
    ensures OnlyStartGrows(t, t', start)
  {
  }

  /** An iteration adds one visit to `start` and to each of its ancestors, and
      one visit to the total of `start`'s children; it fails only when `start`
      is terminal. */
  lemma IterationCounts(t: Tree, start: nat, score: Score, draw: Draws)
    requires Valid(t) && start < |t.nodes|
    ensures Iteration(t, start, score, draw).Err? <==> IsTerminal(t.nodes[start].state)
    ensures Iteration(t, start, score, draw).Ok? ==>
      var t' := Iteration(t, start, score, draw).value;
      && Valid(t') && Grows(t, t')
      && (forall k :: 0 <= k < |t.nodes| && IsAncestor(t, k, start) ==>
            t'.nodes[k].visits == t.nodes[k].visits + 1)
      && ChildVisits(t', start) == ChildVisits(t, start) + 1
      && |t'.nodes[start].children| > 0
  {
    SelectionOnValid(t, start, score);
    if !IsTerminal(t.nodes[start].state) {
      var (t1, c) := Selection(t, start, score).value;
      BackpropagateAfterSelection(t, t1, start, c, Rollout(t1.nodes[c].state, draw));
    }
  }

  /** The whole effect of one iteration: the counts it adds to `start`, its
      ancestors and its children's total, every other node left as it was
      apart from `start`'s children, and no node but `start` gaining children
      or explored actions; it fails only when `start` is terminal. */
  lemma IterationEffect(t: Tree, start: nat, score: Score, draw: Draws)
    requires Valid(t) && start < |t.nodes|
    ensures Iteration(t, start, score, draw).Err? <==> IsTerminal(t.nodes[start].state)
    ensures Iteration(t, start, score, draw).Ok? ==>
      var t' := Iteration(t, start, score, draw).value;
      && Valid(t') && Grows(t, t')
      && (forall k :: 0 <= k < |t.nodes| && IsAncestor(t, k, start) ==>
            t'.nodes[k].visits == t.nodes[k].visits + 1)
      && ChildVisits(t', start) == ChildVisits(t, start) + 1
      && |t'.nodes[start].children| > 0
      && RestUnchanged(t, t', start)
      && OnlyStartGrows(t, t', start)
  {
    IterationCounts(t, start, score, draw);
    IterationFrame(t, start, score, draw);
    IterationShape(t, start, score, draw);
  }

  /** What `i` iterations of step() from `start` have done to `t`: the
      counts below, and nothing away from `start`. */
  predicate StepDone(t: Tree, cur: Tree, start: nat, i: nat)
  {
    StepCounted(t, cur, start, i) && RestUnchanged(t, cur, start) && OnlyStartGrows(t, cur, start)
  }

  /** The visits `i` iterations of step() from `start` have added. */
  predicate StepCounted(t: Tree, cur: Tree, start: nat, i: nat)
  {
    && Valid(t) && start < |t.nodes|
    && Valid(cur) && Grows(t, cur) && start < |cur.nodes|
    && ChildVisits(cur, start) == ChildVisits(t, start) + i
    && (forall k :: 0 <= k < |t.nodes| && IsAncestor(t, k, start) ==>
          cur.nodes[k].visits == t.nodes[k].visits + i)
    && (i > 0 ==> |cur.nodes[start].children| > 0 && !IsTerminal(t.nodes[start].state))
    && (i == 0 ==> cur == t)
  }

  lemma StepDoneNext(t: Tree, cur: Tree, start: nat, i: nat, score: Score, draw: Draws)
    requires StepDone(t, cur, start, i)
    ensures Iteration(cur, start, score, draw).Err? <==> IsTerminal(t.nodes[start].state)
    ensures Iteration(cur, start, score, draw).Ok? ==>
      StepDone(t, Iteration(cur, start, score, draw).value, start, i + 1)
  {
    StepCountedNext(t, cur, start, i, score, draw);
    IterationFrame(cur, start, score, draw);
    IterationShape(cur, start, score, draw);
    if Iteration(cur, start, score, draw).Ok? {
      StepFramesAfter(t, cur, Iteration(cur, start, score, draw).value, start);
    }
  }

  lemma StepCountedNext(t: Tree, cur: Tree, start: nat, i: nat, score: Score, draw: Draws)
    requires StepCounted(t, cur, start, i)
    ensures Iteration(cur, start, score, draw).Err? <==> IsTerminal(t.nodes[start].state)
    ensures Iteration(cur, start, score, draw).Ok? ==>
      StepCounted(t, Iteration(cur, start, score, draw).value, start, i + 1)
  {
    IterationCounts(cur, start, score, draw);
    if Iteration(cur, start, score, draw).Ok? {
      StepCountedAfter(t, cur, Iteration(cur, start, score, draw).value, start, i);
    }
  }

  /** One more iteration's counts on top of `i` iterations' counts. */
  lemma StepCountedAfter(t: Tree, cur: Tree, t': Tree, start: nat, i: nat)
    requires StepCounted(t, cur, start, i)
    requires Valid(t') && Grows(cur, t') && !IsTerminal(cur.nodes[start].state)
    requires forall k :: 0 <= k < |cur.nodes| && IsAncestor(cur, k, start) ==>
      t'.nodes[k].visits == cur.nodes[k].visits + 1
    requires ChildVisits(t', start) == ChildVisits(cur, start) + 1
    requires |t'.nodes[start].children| > 0
    ensures StepCounted(t, t', start, i + 1)
  {
    assert Grows(t, t');
    forall k | 0 <= k < |t.nodes| && IsAncestor(t, k, start)
      ensures t'.nodes[k].visits == t.nodes[k].visits + (i + 1)
    {
      AncestorFrame(t, cur, k, start);
    }
  }

  /** Both frames of `i` iterations, composed with those of one more. */
  lemma StepFramesAfter(t: Tree, cur: Tree, t': Tree, start: nat)
    requires Grows(t, cur) && Grows(cur, t') && start < |t.nodes|
    requires RestUnchanged(t, cur, start) && RestUnchanged(cur, t', start)
    requires OnlyStartGrows(t, cur, start) && OnlyStartGrows(cur, t', start)
    ensures RestUnchanged(t, t', start) && OnlyStartGrows(t, t', start)
  {
    RestUnchangedTrans(t, cur, t', start);
    OnlyStartGrowsTrans(t, cur, t', start);
  }

  /** After the iterations, selection_policy fails only on a node without
      children: every child has been visited. */
  lemma FinalChoice(t: Tree, start: nat, score: Score)
    requires Valid(t) && start < |t.nodes|
    ensures ChildrenInTree(t, start)
    ensures SelectionPolicy(t, start, score).Err? <==> |t.nodes[start].children| == 0
    ensures SelectionPolicy(t, start, score).Ok? ==>
      SelectionPolicy(t, start, score).value in t.nodes[start].children
  {
    assert NodeOk(t, start) && LinksOk(t, start);
    var cs := t.nodes[start].children;
    forall j | 0 <= j < |cs|
      ensures t.nodes[cs[j]].visits >= 1
    {
      assert t.nodes[cs[j]].parent == Some(start);
    }
    if SelectionPolicy(t, start, score).Ok? {
      var k :| 0 <= k < |cs| && SelectionPolicy(t, start, score).value == cs[k];
    }
  }

  /** step(start, itermax): itermax iterations from `start`, then the child
      selection_policy prefers. `draws(i)` drives the i-th rollout. */
  method Step(t: Tree, start: nat, itermax: nat, score: Score, draws: nat -> Draws)
    returns (r: Result<(Tree, nat), Error>)
    requires Valid(t) && start < |t.nodes|
    ensures r.Err? <==>
      (itermax > 0 && IsTerminal(t.nodes[start].state))
      || (itermax == 0 && |t.nodes[start].children| == 0)
    ensures r.Ok? ==>
      var (t', best) := r.value;
      && Valid(t') && Grows(t, t') && start < |t'.nodes|
      && t'.nodes[start].visits == t.nodes[start].visits + itermax
      && ChildVisits(t', start) == ChildVisits(t, start) + itermax
      && (forall k :: 0 <= k < |t.nodes| && IsAncestor(t, k, start) ==>
            t'.nodes[k].visits == t.nodes[k].visits + itermax)
      && best in t'.nodes[start].children
      && ChildrenInTree(t', start) && SelectionPolicy(t', start, score) == Ok(best)
      && RestUnchanged(t, t', start)
      && OnlyStartGrows(t, t', start)
    ensures itermax == 0 && r.Ok? ==> r.value.0 == t
  {
    var cur := t;
    var i := 0;
    while i < itermax
      invariant i <= itermax
      invariant StepDone(t, cur, start, i)
    {
      StepDoneNext(t, cur, start, i, score, draws(i));
      var next := Iteration(cur, start, score, draws(i));
      if next.Err? {
        return Err(next.error);
      }
      cur := next.value;
      i := i + 1;
    }
    FinalChoice(cur, start, score);
    var best := SelectionPolicy(cur, start, score);
    if best.Err? {
      return Err(best.error);
    }
    return Ok((cur, best.value));
  }

  /** What run_mcts has done after `moves` moves from `root` down to `node`. */
  predicate RunDone(t: Tree, cur: Tree, root: nat, node: nat, moves: nat, itermax: nat)
  {
    && Valid(cur) && Grows(t, cur) && root < |t.nodes|
    && node < |cur.nodes| && IsAncestor(cur, root, node)
    && EmptyCount(cur.nodes[node].state.board) + moves == EmptyCount(t.nodes[root].state.board)
    && cur.nodes[root].visits == t.nodes[root].visits + itermax * moves
  }

  lemma RunDoneNext(t: Tree, cur: Tree, root: nat, node: nat, moves: nat, itermax: nat,
                    next: Tree, best: nat)
    requires RunDone(t, cur, root, node, moves, itermax)
    requires Valid(next) && Grows(cur, next)
    requires forall k :: 0 <= k < |cur.nodes| && IsAncestor(cur, k, node) ==>
               next.nodes[k].visits == cur.nodes[k].visits + itermax
    requires node < |next.nodes| && best in next.nodes[node].children
    ensures RunDone(t, next, root, best, moves + 1, itermax)
    ensures EmptyCount(next.nodes[best].state.board) < EmptyCount(cur.nodes[node].state.board)
  {
    var j :| 0 <= j < |next.nodes[node].children| && next.nodes[node].children[j] == best;
    ChildHasFewerEmptyCells(next, node, j);
    AncestorFrameAll(cur, next);
    AncestorOfChild(next, node, best);
    AncestorTransitive(next, root, node, best);
    assert next.nodes[root].visits == cur.nodes[root].visits + itermax;
    assert itermax * (moves + 1) == itermax * moves + itermax;
  }

  /** One move of run_mcts: step from `node`, then descend to the child it
      returns. Only a terminal node can make the step fail once itermax > 0. */
  method Descend(t: Tree, cur: Tree, root: nat, node: nat, moves: nat, itermax: nat,
                 score: Score, draws: nat -> Draws)
    returns (r: Result<(Tree, nat), Error>)
    requires RunDone(t, cur, root, node, moves, itermax) && !IsTerminal(cur.nodes[node].state)
    ensures itermax > 0 ==> r.Ok?
    ensures r.Ok? ==>
      var (next, best) := r.value;
      && RunDone(t, next, root, best, moves + 1, itermax)
      && EmptyCount(next.nodes[best].state.board) < EmptyCount(cur.nodes[node].state.board)
  {
    var s := Step(cur, node, itermax, score, draws);
    if s.Err? {
      return Err(s.error);
    }
    var (next, best) := s.value;
    RunDoneNext(t, cur, root, node, moves, itermax, next, best);
    return Ok((next, best));
  }

  /** run_mcts(itermax): from `root`, repeat step and move to the returned
      child until the current node is terminal. `last` is that final node;
      `draws(m)` drives the step of the m-th move. Each move costs the root
      `itermax` visits and the board one empty cell. */
  method RunMcts(t: Tree, root: nat, itermax: nat, score: Score, draws: nat -> nat -> Draws)
    returns (r: Result<Tree, Error>, last: nat)
    requires Valid(t) && root < |t.nodes|
    ensures itermax > 0 ==> r.Ok?
    ensures r.Ok? ==>
      var t' := r.value;
      && Valid(t') && Grows(t, t')
      && last < |t'.nodes| && IsTerminal(t'.nodes[last].state) && IsAncestor(t', root, last)
      && EmptyCount(t'.nodes[last].state.board) <= EmptyCount(t.nodes[root].state.board)
      && t'.nodes[root].visits == t.nodes[root].visits
           + itermax * (EmptyCount(t.nodes[root].state.board) - EmptyCount(t'.nodes[last].state.board))
  {
    var cur := t;
    var node: nat := root;
    var moves: nat := 0;
    while !IsTerminal(cur.nodes[node].state)
      invariant RunDone(t, cur, root, node, moves, itermax)
      decreases EmptyCount(cur.nodes[node].state.board)
    {
      var d := Descend(t, cur, root, node, moves, itermax, score, draws(moves));
      if d.Err? {
        return Err(d.error), node;
      }
      cur, node, moves := d.value.0, d.value.1, moves + 1;
    }
    assert EmptyCount(t.nodes[root].state.board) - EmptyCount(cur.nodes[node].state.board) == moves;
    return Ok(cur), node;
  }
}

=== FILE: search_tree.dfy ===
/** The MCTS search tree. The original links MCTSNode objects by a parent
    reference and a list of children; here the nodes live in an arena (a
    sequence) and those links are arena indices. A node's index never changes
    and new nodes are only ever appended. */
module SearchTree {
  import opened Wrappers
  import opened TicTacToe

  /** One MCTSNode. The `results` counter's three buckets are `wins`
      (results[1]: the rollout's winner is this node's mover), `draws`
      (results[0]) and `losses` (results[-1]). `explored` is the key set of
      `action_counts`, whose values are only ever 1. */
  datatype Node = Node(
    state: GameState,
    parent: Option<nat>,
    children: seq<nat>,
    visits: nat,
    wins: nat,
    draws: nat,
    losses: nat,
    explored: set<Action>)

  datatype Tree = Tree(nodes: seq<Node>)

  /** The ways an engine step can raise in the original. */
  datatype Error =
    | TerminalSelection   // selection on a terminal node (ValueError)
    | ZeroDivision        // value() of a node with no visits
    | EmptyArgmax         // argmax over a node without children

  /** An exact quotient: the float division in value() is not modelled. */
  datatype Fraction = Fraction(num: int, den: nat)

  /** MCTSNode.__init__: no children, no visits, empty counters. */
  function NewNode(state: GameState, parent: Option<nat>): Node
  {
    Node(state, parent, [], 0, 0, 0, 0, {})
  }

  /** A search tree holding one parentless node. */
  function NewTree(state: GameState): Tree
  {
    Tree([NewNode(state, None)])
  }

  /** value(): (results[1] + results[0] - results[-1]) / visits. */
  function Value(n: Node): (r: Result<Fraction, Error>)
    ensures r.Err? <==> n.visits == 0
    ensures r.Ok? ==> r.value.den == n.visits
  {
    if n.visits == 0 then Err(ZeroDivision)
    else Ok(Fraction(n.wins + n.draws - n.losses, n.visits))
  }

  // ---------------------------------------------------------------------------
  // Ancestry
  // ---------------------------------------------------------------------------

  /** Every parent was created before its child. */
  predicate ParentsPrecede(t: Tree)
  {
    forall i :: 0 <= i < |t.nodes| && t.nodes[i].parent.Some? ==> t.nodes[i].parent.value < i
  }

  /** `a` lies on the parent chain from `x` up to its root (`x` included). */
  predicate IsAncestor(t: Tree, a: nat, x: nat)
    decreases x
  {
    a == x
    || (x < |t.nodes| && t.nodes[x].parent.Some? && t.nodes[x].parent.value < x
        && IsAncestor(t, a, t.nodes[x].parent.value))
  }

  lemma {:induction false} AncestorIsEarlier(t: Tree, a: nat, x: nat)
    requires IsAncestor(t, a, x)
    decreases x
    ensures a <= x
  {
    if a != x {
      AncestorIsEarlier(t, a, t.nodes[x].parent.value);
    }
  }

  /** `t'` keeps every node of `t` in place with the same parent and state. */
  predicate Grows(t: Tree, t': Tree)
  {
    |t.nodes| <= |t'.nodes|
    && forall i :: 0 <= i < |t.nodes| ==>
         t'.nodes[i].parent == t.nodes[i].parent && t'.nodes[i].state == t.nodes[i].state
  }

  lemma {:induction false} AncestorFrame(t: Tree, t': Tree, a: nat, x: nat)
    requires Grows(t, t') && x < |t.nodes|
    decreases x
    ensures IsAncestor(t', a, x) == IsAncestor(t, a, x)
  {
    if t.nodes[x].parent.Some? && t.nodes[x].parent.value < x {
      AncestorFrame(t, t', a, t.nodes[x].parent.value);
    }
  }

  lemma AncestorFrameAll(t: Tree, t': Tree)
    requires Grows(t, t')
    ensures forall a: nat, x: nat :: x < |t.nodes| ==> IsAncestor(t', a, x) == IsAncestor(t, a, x)
  {
    forall a: nat, x: nat | x < |t.nodes|
      ensures IsAncestor(t', a, x) == IsAncestor(t, a, x)
    {
      AncestorFrame(t, t', a, x);
    }
  }

  // ---------------------------------------------------------------------------
  // Backpropagation
  // ---------------------------------------------------------------------------

  /** One node's share of backpropagate: a visit and one bucket, chosen by
      comparing the result with this node's own mover. */
  function Record(n: Node, result: int): Node
  {
    var n' := n.(visits := n.visits + 1);
    if result == 0 then n'.(draws := n.draws + 1)
    else if result == n.state.player then n'.(wins := n.wins + 1)
    else n'.(losses := n.losses + 1)
  }

  /** Record adds exactly one visit and exactly one bucket increment: results[0]
      for a draw, results[1] when the result is the node's mover, results[-1]
      otherwise; the links, state and explored actions stay. */
  lemma RecordBuckets(n: Node, result: int)
    ensures Record(n, result).visits == n.visits + 1
    ensures Record(n, result).draws == n.draws + (if result == 0 then 1 else 0)
    ensures Record(n, result).wins == n.wins + (if result != 0 && result == n.state.player then 1 else 0)
    ensures Record(n, result).losses == n.losses + (if result != 0 && result != n.state.player then 1 else 0)
    ensures Record(n, result).wins + Record(n, result).draws + Record(n, result).losses
            == n.wins + n.draws + n.losses + 1
    ensures Record(n, result).(visits := n.visits, wins := n.wins, draws := n.draws, losses := n.losses) == n
  {
  }

  /** value()'s numerator moves up by one for a draw as for a win, and down by
      one for a loss: draws count in the node's favour. */
  lemma RecordValue(n: Node, result: int)
    ensures Value(Record(n, result)).Ok?
    ensures Value(Record(n, result)).value.num ==
      n.wins + n.draws - n.losses + (if result != 0 && result != n.state.player then -1 else 1)
  {
  }

  /** backpropagate(result) started at `id`: every node on the chain from `id`
      up to the parentless root is recorded once; every other node is unchanged. */
  function Backpropagate(t: Tree, id: nat, result: int): (t': Tree)
    requires id < |t.nodes| && ParentsPrecede(t)
    decreases id
    ensures |t'.nodes| == |t.nodes|
    ensures forall k :: 0 <= k < |t.nodes| ==>
      t'.nodes[k] == (if IsAncestor(t, k, id) then Record(t.nodes[k], result) else t.nodes[k])
  {
    var t1 := Tree(t.nodes[id := Record(t.nodes[id], result)]);
    assert Grows(t, t1);
    match t.nodes[id].parent
    case None => t1
    case Some(p) =>
      AncestorFrameAll(t, t1);
      assert forall k: nat :: IsAncestor(t, k, p) ==> k <= p by {
        forall k: nat | IsAncestor(t, k, p)
          ensures k <= p
        {
          AncestorIsEarlier(t, k, p);
        }
      }
      Backpropagate(t1, p, result)
  }

  /** Backpropagation changes only counters. */
  lemma BackpropagateGrows(t: Tree, id: nat, result: int)
    requires id < |t.nodes| && ParentsPrecede(t)
    ensures Grows(t, Backpropagate(t, id, result))
    ensures forall k :: 0 <= k < |t.nodes| ==>
      Backpropagate(t, id, result).nodes[k].children == t.nodes[k].children
      && Backpropagate(t, id, result).nodes[k].explored == t.nodes[k].explored
  {
  }

  // ---------------------------------------------------------------------------
  // Expansion
  // ---------------------------------------------------------------------------

  /** The position in `acts`, from `k` on, of the first action not yet explored. */
  function FirstUnexploredFrom(acts: seq<Action>, explored: set<Action>, k: nat): (r: Option<nat>)
    requires k <= |acts|
    decreases |acts| - k
    ensures r.Some? ==> k <= r.value < |acts| && acts[r.value] !in explored
    ensures r.Some? ==> forall j :: k <= j < r.value ==> acts[j] in explored
    ensures r.None? ==> forall j :: k <= j < |acts| ==> acts[j] in explored
  {
    if k == |acts| then None
    else if acts[k] !in explored then Some(k)
    else FirstUnexploredFrom(acts, explored, k + 1)
  }

  function FirstUnexplored(acts: seq<Action>, explored: set<Action>): Option<nat>
  {
    FirstUnexploredFrom(acts, explored, 0)
  }

  /** Append a fresh child of `id` for action `a` and record `a` as explored. */
  function AddChild(t: Tree, id: nat, a: Action): (t': Tree)
    requires id < |t.nodes|
    ensures |t'.nodes| == |t.nodes| + 1
    ensures t'.nodes[|t.nodes|] == NewNode(TakeAction(t.nodes[id].state, a), Some(id))
    ensures t'.nodes[id] == t.nodes[id].(children := t.nodes[id].children + [|t.nodes|],
                                        explored := t.nodes[id].explored + {a})
    ensures forall i :: 0 <= i < |t.nodes| && i != id ==> t'.nodes[i] == t.nodes[i]
  {
    var n := t.nodes[id];
    var child := NewNode(TakeAction(n.state, a), Some(id));
    Tree(t.nodes[id := n.(children := n.children + [|t.nodes|], explored := n.explored + {a})] + [child])
  }

  /** expand(): for the first legal action not in action_counts, record it,
      append one child holding the state after that action and return it
      (the new last child). None when every legal action is already explored. */
  function Expand(t: Tree, id: nat): (r: Option<(Tree, nat)>)
    requires id < |t.nodes|
    ensures var n := t.nodes[id];
      r.None? <==> forall a :: a in PossibleActions(n.state.board) ==> a in n.explored
    ensures r.Some? ==>
      var n := t.nodes[id];
      var acts := PossibleActions(n.state.board);
      var k := FirstUnexplored(acts, n.explored).value;
      && k < |acts| && acts[k] !in n.explored
      && (forall j :: 0 <= j < k ==> acts[j] in n.explored)
      && r.value == (AddChild(t, id, acts[k]), |t.nodes|)
  {
    var n := t.nodes[id];
    var acts := PossibleActions(n.state.board);
    match FirstUnexplored(acts, n.explored)
    case None => None
    case Some(k) => Some((AddChild(t, id, acts[k]), |t.nodes|))
  }

  // ---------------------------------------------------------------------------
  // Rollout
  // ---------------------------------------------------------------------------

  /** The random draws of one rollout: the j-th draw picks the j-th move. */
  type Draws = nat -> nat

  /** The state rollout() reaches: random moves until the state is terminal. */
  function RolloutFrom(s: GameState, draw: Draws, j: nat): (f: GameState)
    decreases EmptyCount(s.board)
    ensures IsTerminal(f)
    ensures IsTerminal(s) ==> f == s
    ensures EmptyCount(f.board) <= EmptyCount(s.board)
  {
    if IsTerminal(s) then s
    else
      var next := SimulateRandomAction(s, draw(j));
      if next.Some? then RolloutFrom(next.value, draw, j + 1)
      else assert false; s
  }

  /** rollout(): the winner of the terminal state reached, 1, -1 or 0, as the
      corrected get_winner reports it (the owner of the first complete line). */
  function Rollout(s: GameState, draw: Draws): (w: int)
    ensures -1 <= w <= 1
    ensures IsTerminal(s) ==> IntendedWinner(s.board) == Some(w)
  {
    IntendedWinner(RolloutFrom(s, draw, 0).board).value
  }

  /** Every state a rollout passes through is one legal move on from the
      previous one, so a rollout plays at most as many moves as there are
      empty cells. */
  lemma {:induction false} RolloutPlaysLegalMoves(s: GameState, draw: Draws, j: nat)
    decreases EmptyCount(s.board)
    ensures !IsTerminal(s) ==>
      exists a :: a in PossibleActions(s.board)
        && RolloutFrom(s, draw, j) == RolloutFrom(TakeAction(s, a), draw, j + 1)
  {
    if !IsTerminal(s) {
      var next := SimulateRandomAction(s, draw(j));
      var a :| a in PossibleActions(s.board) && next.value == TakeAction(s, a);
      assert RolloutFrom(s, draw, j) == RolloutFrom(TakeAction(s, a), draw, j + 1);
    }
  }
}

=== FILE: tictactoe.dfy ===
/** The tic-tac-toe game state: a 3x3 board of marks and the player to move. */
module TicTacToe {
  import opened Wrappers

  /** A cell holds 1 (X), -1 (O) or 0 (empty). */
  type Mark = m: int | -1 <= m <= 1

  /** The grid in row-major order: cell (r, c) lives at index 3 * r + c. */
  type Board = b: seq<Mark> | |b| == 9 witness [0, 0, 0, 0, 0, 0, 0, 0, 0]

  /** The player to move, 1 or -1. */
  type Player = p: int | p == 1 || p == -1 witness 1

  type Coord = k: int | 0 <= k < 3

  /** A move: the (row, column) tuple the original program passes around. */
  datatype Action = Action(row: Coord, col: Coord)

  datatype GameState = GameState(board: Board, player: Player)

  /** A line of three cells, in the order the winner and heuristic scans visit them. */
  datatype Line = Row(i: Coord) | Col(j: Coord) | Diag | Anti

  function Index(a: Action): (k: nat)
    ensures k < 9
  {
    3 * a.row + a.col
  }

  function ActionAt(k: nat): (a: Action)
    requires k < 9
    ensures Index(a) == k
  {
    var r := if k < 3 then 0 else if k < 6 then 1 else 2;
    Action(r, k - 3 * r)
  }

  lemma IndexInjective(a: Action, b: Action)
    ensures Index(a) == Index(b) ==> a == b
  {
  }

  function Abs(x: int): nat
  {
    if x < 0 then -x else x
  }

  /** Python's integer `x // 3`. With a positive divisor Dafny's Euclidean
      division rounds towards minus infinity exactly like Python's floor division. */
  function FloorDiv3(x: int): int
  {
    x / 3
  }

  /** Python's `-player`. */
  function Opponent(p: Player): (q: Player)
    ensures q as int == -(p as int)
  {
    if p == 1 then -1 else 1
  }

  /** Python's `x or y` on integers: `x` unless it is zero. */
  function PyOr(x: int, y: int): int
  {
    if x != 0 then x else y
  }

  // ---------------------------------------------------------------------------
  // Moves
  // ---------------------------------------------------------------------------

  /** Copy the board, write the mover's mark at `a` and hand the move to the
      other player. The cell is overwritten whatever it held. */
  function TakeAction(s: GameState, a: Action): (s': GameState)
    ensures s'.board[Index(a)] == s.player
    ensures forall k :: 0 <= k < 9 && k != Index(a) ==> s'.board[k] == s.board[k]
    ensures s'.player == Opponent(s.player)
  {
    GameState(s.board[Index(a) := s.player], Opponent(s.player))
  }

  /** The empty cells at index `k` or later, in row-major order. */
  function EmptyFrom(b: Board, k: nat): (acts: seq<Action>)
    requires k <= 9
    decreases 9 - k
    ensures forall a :: a in acts <==> k <= Index(a) && b[Index(a)] == 0
    ensures forall i, j :: 0 <= i < j < |acts| ==> Index(acts[i]) < Index(acts[j])
    ensures |acts| <= 9 - k
  {
    if k == 9 then []
    else
      var rest := EmptyFrom(b, k + 1);
      if b[k] == 0 then
        assert forall a :: Index(a) == k ==> a == ActionAt(k) by {
          forall a
            ensures Index(a) == k ==> a == ActionAt(k)
          {
            IndexInjective(a, ActionAt(k));
          }
        }
        [ActionAt(k)] + rest
      else
        rest
  }

  /** The legal moves: every empty cell, in row-major order (numpy's argwhere). */
  function PossibleActions(b: Board): (acts: seq<Action>)
    ensures forall a :: a in acts <==> b[Index(a)] == 0
    ensures forall i, j :: 0 <= i < j < |acts| ==> Index(acts[i]) < Index(acts[j])
  {
    EmptyFrom(b, 0)
  }

  /** There is no legal move exactly when the board is full. */
  lemma NoMoveIffFull(b: Board)
    ensures |PossibleActions(b)| == 0 <==> 0 !in b
  {
    var acts := PossibleActions(b);
    if 0 in b {
      var k :| 0 <= k < 9 && b[k] == 0;
      assert ActionAt(k) in acts;
    }
    if |acts| > 0 {
      assert acts[0] in acts;
    }
  }

  /** The number of empty cells; it bounds how many moves remain. */
  function EmptyCount(b: Board): nat
  {
    |PossibleActions(b)|
  }

  /** Writing a nonzero mark on an empty cell removes exactly that cell from
      every suffix scan that reaches it. */
  lemma {:induction false} EmptyFromAfterWrite(b: Board, idx: nat, p: Player, k: nat)
    requires idx < 9 && b[idx] == 0 && k <= 9
    decreases 9 - k
    ensures |EmptyFrom(b[idx := p], k)| + (if k <= idx then 1 else 0) == |EmptyFrom(b, k)|
  {
    if k < 9 {
      EmptyFromAfterWrite(b, idx, p, k + 1);
    }
  }

  /** Playing a legal move removes exactly that move from the legal moves. */
  lemma TakeActionRemovesAction(s: GameState, a: Action)
    requires a in PossibleActions(s.board)
    ensures forall x :: x in PossibleActions(TakeAction(s, a).board) <==> x in PossibleActions(s.board) && x != a
    ensures EmptyCount(TakeAction(s, a).board) + 1 == EmptyCount(s.board)
  {
    var b' := TakeAction(s, a).board;
    assert b' == s.board[Index(a) := s.player];
    forall x
      ensures x in PossibleActions(b') <==> x in PossibleActions(s.board) && x != a
    {
      IndexInjective(x, a);
    }
    EmptyFromAfterWrite(s.board, Index(a), s.player, 0);
  }

  /** Two different legal moves lead to different states. */
  lemma TakeActionDistinct(s: GameState, a: Action, b: Action)
    requires a in PossibleActions(s.board) && b in PossibleActions(s.board) && a != b
    ensures TakeAction(s, a) != TakeAction(s, b)
  {
    IndexInjective(a, b);
    assert TakeAction(s, b).board[Index(a)] == 0;
  }

  /** random.choice over the legal moves, the draw being any natural number:
      index `pick % n` reaches every one of the `n` moves. Raises (None) when
      no cell is empty. The original copies the board and flips the player
      inline rather than calling take_action. */
  function SimulateRandomAction(s: GameState, pick: nat): (r: Option<GameState>)
    ensures r.None? <==> 0 !in s.board
    ensures r.Some? ==> exists a :: a in PossibleActions(s.board) && r.value == TakeAction(s, a)
    ensures r.Some? ==> EmptyCount(r.value.board) + 1 == EmptyCount(s.board)
    ensures r.Some? ==> r.value.player == Opponent(s.player)
  {
    var acts := PossibleActions(s.board);
    NoMoveIffFull(s.board);
    if |acts| == 0 then None
    else
      var a := acts[pick % |acts|];
      TakeActionRemovesAction(s, a);
      Some(GameState(s.board[Index(a) := s.player], Opponent(s.player)))
  }

  lemma ModOfSmaller(i: nat, n: nat)
    requires i < n
    ensures i % n == i
  {
  }

  /** Every legal move is the outcome of some random draw. */
  lemma RandomActionReachesEveryMove(s: GameState, a: Action)
    requires a in PossibleActions(s.board)
    ensures exists pick: nat :: SimulateRandomAction(s, pick) == Some(TakeAction(s, a))
  {
    var acts := PossibleActions(s.board);
    var i :| 0 <= i < |acts| && acts[i] == a;
    ModOfSmaller(i, |acts|);
    assert SimulateRandomAction(s, i).value == GameState(s.board[Index(a) := s.player], Opponent(s.player));
  }

  // ---------------------------------------------------------------------------
  // Lines
  // ---------------------------------------------------------------------------

  /** The board indices of a line, in the order numpy lists them: a row left
      to right, a column top to bottom, the diagonal from (0,0), and the
      anti-diagonal (the diagonal of the left-right flipped board) from (0,2). */
  function Cells(l: Line): (c: seq<nat>)
    ensures |c| == 3 && c[0] < 9 && c[1] < 9 && c[2] < 9
  {
    match l
    case Row(i) => [3 * i, 3 * i + 1, 3 * i + 2]
    case Col(j) => [j, 3 + j, 6 + j]
    case Diag => [0, 4, 8]
    case Anti => [2, 4, 6]
  }

  function LineValues(b: Board, l: Line): (v: seq<int>)
    ensures |v| == 3 && -1 <= v[0] <= 1 && -1 <= v[1] <= 1 && -1 <= v[2] <= 1
  {
    var c := Cells(l);
    [b[c[0]], b[c[1]], b[c[2]]]
  }

  function LineSum(b: Board, l: Line): int
  {
    var v := LineValues(b, l);
    v[0] + v[1] + v[2]
  }

  /** Three equal nonzero marks. */
  predicate Complete(b: Board, l: Line)
  {
    Abs(LineSum(b, l)) == 3
  }

  /** A complete line's marks all equal the sign of its sum. */
  lemma CompleteOwner(b: Board, l: Line)
    requires Complete(b, l)
    ensures LineValues(b, l)[0] == LineValues(b, l)[1] == LineValues(b, l)[2] != 0
    ensures FloorDiv3(LineSum(b, l)) == LineValues(b, l)[0]
  {
  }

  /** The order both scans of the original visit the lines:
      row i then column i for i = 0, 1, 2, then the diagonal, then the anti-diagonal. */
  const ScanOrder: seq<Line> := [Row(0), Col(0), Row(1), Col(1), Row(2), Col(2), Diag, Anti]

  // ---------------------------------------------------------------------------
  // Winner
  // ---------------------------------------------------------------------------

  /** The scan of get_winner from row/column pair `i` on. The first pair with a
      complete row OR column answers `row // 3 or col // 3`; then the two
      diagonals the same way; then a full board is a draw (0); else None. */
  function WinnerScan(b: Board, i: nat): Option<int>
    requires i <= 3
    decreases 3 - i
  {
    if i < 3 then
      if Complete(b, Row(i)) || Complete(b, Col(i)) then
        Some(PyOr(FloorDiv3(LineSum(b, Row(i))), FloorDiv3(LineSum(b, Col(i)))))
      else
        WinnerScan(b, i + 1)
    else if Complete(b, Diag) || Complete(b, Anti) then
      Some(PyOr(FloorDiv3(LineSum(b, Diag)), FloorDiv3(LineSum(b, Anti))))
    else if 0 !in b then
      Some(0)
    else
      None
  }

  /** No row or column pair before `i` triggers the scan. */
  predicate NoPairBefore(b: Board, i: Coord)
  {
    forall j: Coord :: j < i ==> !Complete(b, Row(j)) && !Complete(b, Col(j))
  }

  /** No row or column pair from `i` on is complete. */
  predicate NoPairFrom(b: Board, i: nat)
  {
    forall j: Coord :: i <= j ==> !Complete(b, Row(j)) && !Complete(b, Col(j))
  }

  lemma {:induction false} WinnerScanRange(b: Board, i: nat)
    requires i <= 3
    decreases 3 - i
    ensures WinnerScan(b, i).Some? ==> -1 <= WinnerScan(b, i).value <= 1
  {
    if i < 3 {
      WinnerScanRange(b, i + 1);
    }
  }

  lemma {:induction false} WinnerScanNone(b: Board, i: nat)
    requires i <= 3
    decreases 3 - i
    ensures WinnerScan(b, i).None? <==>
      (0 in b && !Complete(b, Diag) && !Complete(b, Anti) && NoPairFrom(b, i))
  {
    if i < 3 {
      WinnerScanNone(b, i + 1);
      assert NoPairFrom(b, i) <==>
        (!Complete(b, Row(i)) && !Complete(b, Col(i)) && NoPairFrom(b, i + 1));
    }
  }

  /** The scan reaches pair `i` untouched when no earlier pair triggers. */
  lemma {:induction false} WinnerScanSkips(b: Board, i: Coord)
    requires NoPairBefore(b, i)
    ensures WinnerScan(b, 0) == WinnerScan(b, i)
  {
    if i > 0 {
      WinnerScanSkips(b, i - 1);
    }
  }

  /** get_winner: 1 or -1 for a (reported) winner, 0 for a draw, None while
      the game is still open. None exactly when some cell is empty and no line
      is complete; any value it reports is -1, 0 or 1. */
  function GetWinner(b: Board): (w: Option<int>)
    ensures w.Some? ==> -1 <= w.value <= 1
    ensures w.None? <==> 0 in b && forall l: Line :: !Complete(b, l)
  {
    WinnerScanNone(b, 0);
    WinnerScanRange(b, 0);
    assert (forall l: Line :: !Complete(b, l)) <==>
      (!Complete(b, Diag) && !Complete(b, Anti) && NoPairFrom(b, 0));
    WinnerScan(b, 0)
  }

  /** is_terminal reads the winner cached when the state was built; as the board
      never changes afterwards, that cache equals GetWinner of the board. */
  predicate IsTerminal(s: GameState)
  {
    GetWinner(s.board).Some?
  }

  /** A state is terminal exactly when a line is complete or no cell is empty;
      so a full board is always terminal and an open game always has a move. */
  lemma TerminalIff(s: GameState)
    ensures IsTerminal(s) <==> 0 !in s.board || exists l: Line :: Complete(s.board, l)
    ensures !IsTerminal(s) ==> |PossibleActions(s.board)| > 0
    ensures 0 !in s.board ==> IsTerminal(s)
  {
    var w := GetWinner(s.board);
    assert w.None? <==> 0 in s.board && forall l: Line :: !Complete(s.board, l);
    if !IsTerminal(s) {
      NoMoveIffFull(s.board);
    }
  }

  /** A complete row reached first by the scan is reported as its owner's win. */
  lemma CompleteRowReportsOwner(b: Board, i: Coord)
    requires Complete(b, Row(i)) && NoPairBefore(b, i)
    ensures GetWinner(b) == Some(b[3 * i])
  {
    WinnerScanSkips(b, i);
    CompleteOwner(b, Row(i));
  }

  /** A complete column reached first by the scan: its owner is reported, except
      that a row through the same pair summing to -1 floors to -1 and wins the
      `or`. Only X's column wins can be misreported this way. */
  lemma CompleteColumnReport(b: Board, i: Coord)
    requires Complete(b, Col(i)) && NoPairBefore(b, i)
    ensures GetWinner(b) == Some(if LineSum(b, Row(i)) == -1 then -1 else b[i])
  {
    WinnerScanSkips(b, i);
    CompleteOwner(b, Col(i));
    assert b[3 * i + i] == b[i];
  }

  /** The diagonals, once no row or column is complete: a complete diagonal
      reports its owner; a complete anti-diagonal reports its owner unless the
      diagonal sums to -1. */
  lemma CompleteDiagonalReport(b: Board)
    requires NoPairBefore(b, 2) && !Complete(b, Row(2)) && !Complete(b, Col(2))
    ensures Complete(b, Diag) ==> GetWinner(b) == Some(b[0])
    ensures Complete(b, Anti) && !Complete(b, Diag) ==>
      GetWinner(b) == Some(if LineSum(b, Diag) == -1 then -1 else b[2])
  {
    WinnerScanSkips(b, 2);
    if Complete(b, Diag) {
      CompleteOwner(b, Diag);
    }
    if Complete(b, Anti) {
      CompleteOwner(b, Anti);
    }
  }

  /** A board X reaches in legal play (X: (0,0) (1,0) (2,0); O: (0,1) (0,2))
      where X owns column 0 but get_winner reports O. */
  lemma ColumnWinMisreported()
    ensures var b: Board := [1, -1, -1, 1, 0, 0, 1, 0, 0];
      Complete(b, Col(0)) && b[0] == 1 && GetWinner(b) == Some(-1)
  {
    var b: Board := [1, -1, -1, 1, 0, 0, 1, 0, 0];
    CompleteColumnReport(b, 0);
  }

  /** The evident intent of get_winner: the owner of whichever line of the
      triggering pair is complete. */
  function IntendedScan(b: Board, i: nat): Option<int>
    requires i <= 3
    decreases 3 - i
  {
    if i < 3 then
      if Complete(b, Row(i)) then Some(FloorDiv3(LineSum(b, Row(i))))
      else if Complete(b, Col(i)) then Some(FloorDiv3(LineSum(b, Col(i))))
      else IntendedScan(b, i + 1)
    else if Complete(b, Diag) then Some(FloorDiv3(LineSum(b, Diag)))
    else if Complete(b, Anti) then Some(FloorDiv3(LineSum(b, Anti)))
    else if 0 !in b then Some(0)
    else None
  }

  lemma {:induction false} IntendedScanDecides(b: Board, i: nat)
    requires i <= 3
    decreases 3 - i
    ensures IntendedScan(b, i).Some? == WinnerScan(b, i).Some?
    ensures IntendedScan(b, i).Some? ==> -1 <= IntendedScan(b, i).value <= 1
  {
    if i < 3 {
      IntendedScanDecides(b, i + 1);
      if Complete(b, Row(i)) {
        CompleteOwner(b, Row(i));
      } else if Complete(b, Col(i)) {
        CompleteOwner(b, Col(i));
      }
    } else if Complete(b, Diag) {
      CompleteOwner(b, Diag);
    } else if Complete(b, Anti) {
      CompleteOwner(b, Anti);
    }
  }

  /** The corrected get_winner decides a game exactly when the original
      does; only the reported winner may differ. */
  function IntendedWinner(b: Board): (w: Option<int>)
    ensures w.Some? <==> GetWinner(b).Some?
    ensures w.Some? ==> -1 <= w.value <= 1
  {
    IntendedScanDecides(b, 0);
    IntendedScan(b, 0)
  }

  /** The first complete line in scan order. */
  predicate FirstComplete(b: Board, k: nat)
  {
    k < |ScanOrder| && Complete(b, ScanOrder[k])
    && forall j :: 0 <= j < k ==> !Complete(b, ScanOrder[j])
  }

  /** The corrected winner reports the owner of the first complete line in scan
      order, and it is open (None) or decided exactly when get_winner is, so
      terminal detection is the same under both. */
  lemma IntendedWinnerReportsOwner(b: Board, k: nat)
    requires FirstComplete(b, k)
    ensures IntendedWinner(b) == Some(LineValues(b, ScanOrder[k])[0])
    ensures IntendedWinner(b).Some? == GetWinner(b).Some?
  {
    CompleteOwner(b, ScanOrder[k]);
    assert ScanOrder[0] == Row(0) && ScanOrder[1] == Col(0) && ScanOrder[2] == Row(1);
    assert ScanOrder[3] == Col(1) && ScanOrder[4] == Row(2) && ScanOrder[5] == Col(2);
    assert ScanOrder[6] == Diag && ScanOrder[7] == Anti;
  }

  /** On boards with no complete line both versions give the same answer. */
  lemma IntendedAgreesWithoutLines(b: Board)
    requires forall l: Line :: !Complete(b, l)
    ensures IntendedWinner(b) == GetWinner(b)
    ensures IntendedWinner(b) == (if 0 in b then None else Some(0))
  {
  }

  // ---------------------------------------------------------------------------
  // Block-then-win heuristic
  // ---------------------------------------------------------------------------

  /** The index in ScanOrder of the first line whose sum is `target`, scanning
      from position `k`. */
  function ThreatFrom(b: Board, target: int, k: nat): (r: Option<nat>)
    requires k <= |ScanOrder|
    decreases |ScanOrder| - k
    ensures r.Some? ==> k <= r.value < |ScanOrder| && LineSum(b, ScanOrder[r.value]) == target
    ensures r.Some? ==> forall j :: k <= j < r.value ==> LineSum(b, ScanOrder[j]) != target
    ensures r.None? ==> forall j :: k <= j < |ScanOrder| ==> LineSum(b, ScanOrder[j]) != target
  {
    if k == |ScanOrder| then None
    else if LineSum(b, ScanOrder[k]) == target then Some(k)
    else ThreatFrom(b, target, k + 1)
  }

  function Threat(b: Board, target: int): Option<nat>
  {
    ThreatFrom(b, target, 0)
  }

  /** `np.where(v == 0)[0][0]`: the position of the first zero. */
  function FirstZero(v: seq<int>): (k: nat)
    requires 0 in v
    ensures k < |v| && v[k] == 0
    ensures forall j :: 0 <= j < k ==> v[j] != 0
  {
    if v[0] == 0 then 0 else 1 + FirstZero(v[1..])
  }

  /** A line summing to 2 or -2 holds exactly one empty cell. */
  lemma TwoInLineHasGap(b: Board, l: Line)
    requires Abs(LineSum(b, l)) == 2
    ensures 0 in LineValues(b, l)
    ensures multiset(LineValues(b, l))[0] == 1
  {
    var v := LineValues(b, l);
    assert v == [v[0]] + [v[1]] + [v[2]];
  }

  /** The cell the heuristic writes for a line summing to +-2, as the original
      computes it: in a row or column the empty cell of that line; on both
      diagonals (k, k) where k is the empty position along the line, which on
      the anti-diagonal is not the empty cell (k, 2 - k) unless k == 1. */
  function MoveFor(b: Board, l: Line): Action
    requires Abs(LineSum(b, l)) == 2
  {
    TwoInLineHasGap(b, l);
    var k := FirstZero(LineValues(b, l));
    match l
    case Row(i) => Action(i, k)
    case Col(j) => Action(k, j)
    case Diag => Action(k, k)
    case Anti => Action(k, k)
  }

  /** The block-then-win heuristic, writing `MoveFor` on the threatened line
      as the original does, or `IntendedMoveFor` when `intended` holds. */
  function Respond(s: GameState, pick: nat, intended: bool): (r: Option<GameState>)
    ensures r.None? <==> 0 !in s.board
    ensures r.Some? ==> r.value.player == Opponent(s.player)
    ensures r.Some? ==> exists a :: r.value == TakeAction(s, a)
    ensures r.Some? && intended ==>
      exists a :: a in PossibleActions(s.board) && r.value == TakeAction(s, a)
  {
    var b := s.board;
    match Threat(b, -2 * (s.player as int))
    case Some(k) => RespondOn(s, ScanOrder[k], intended)
    case None =>
      match Threat(b, 2 * (s.player as int))
      case Some(k) => RespondOn(s, ScanOrder[k], intended)
      case None => SimulateRandomAction(s, pick)
  }

  /** The move played on a line of two; the corrected move is a legal one. */
  function RespondOn(s: GameState, l: Line, intended: bool): (r: Option<GameState>)
    requires Abs(LineSum(s.board, l)) == 2
    ensures r.Some? && 0 in s.board && r.value.player == Opponent(s.player)
    ensures exists a :: r.value == TakeAction(s, a)
    ensures intended ==> exists a :: a in PossibleActions(s.board) && r.value == TakeAction(s, a)
  {
    TwoInLineHasGap(s.board, l);
    assert LineValues(s.board, l)[FirstZero(LineValues(s.board, l))] == 0;
    if intended then
      IntendedMoveFillsGap(s.board, l, s.player);
      Some(TakeAction(s, IntendedMoveFor(s.board, l)))
    else
      Some(TakeAction(s, MoveFor(s.board, l)))
  }

  /** simulate_action: block the first opponent line of two (sum -2 * player),
      else complete the first own line of two (sum 2 * player), else play a
      random move. Raises (None) only when the board is full. The cell it
      writes need not be empty (see AntiDiagonalBlockMisses). */
  function SimulateAction(s: GameState, pick: nat): (r: Option<GameState>)
    ensures r.None? <==> 0 !in s.board
    ensures r.Some? ==> r.value.player == Opponent(s.player)
    ensures r.Some? ==> exists a :: r.value == TakeAction(s, a)
  {
    Respond(s, pick, false)
  }

  /** simulate_action with the anti-diagonal move corrected: always a legal move. */
  function IntendedSimulateAction(s: GameState, pick: nat): (r: Option<GameState>)
    ensures r.None? <==> 0 !in s.board
    ensures r.Some? ==> r.value.player == Opponent(s.player)
    ensures r.Some? ==> exists a :: a in PossibleActions(s.board) && r.value == TakeAction(s, a)
  {
    Respond(s, pick, true)
  }

  /** In a line of two equal marks and a gap, the gap is the only empty cell:
      filling it leaves no empty cell and sums to the two marks plus `p`. */
  lemma FillGap(v: seq<int>, z: nat, p: Player)
    requires |v| == 3 && -1 <= v[0] <= 1 && -1 <= v[1] <= 1 && -1 <= v[2] <= 1
    requires Abs(v[0] + v[1] + v[2]) == 2 && z < 3 && v[z] == 0
    ensures 0 !in v[z := p]
    ensures v[z := p][0] + v[z := p][1] + v[z := p][2] == v[0] + v[1] + v[2] + p
  {
  }

  /** Writing cell `Cells(l)[z]` changes position `z` of the line and nothing else on it. */
  lemma WriteOnLine(b: Board, l: Line, z: nat, p: Player)
    requires z < 3
    ensures LineValues(b[Cells(l)[z] := p], l) == LineValues(b, l)[z := p]
  {
  }

  /** The cell the heuristic writes in a row, column or diagonal is the
      line's cell at the gap position. */
  lemma MoveForOnLine(b: Board, l: Line)
    requires Abs(LineSum(b, l)) == 2 && l != Anti
    ensures 0 in LineValues(b, l)
    ensures Index(MoveFor(b, l)) == Cells(l)[FirstZero(LineValues(b, l))]
  {
    TwoInLineHasGap(b, l);
  }

  /** In a row, column or diagonal the heuristic's cell is the line's empty
      cell, and writing any mark there leaves the line with no gap. */
  lemma MoveForFillsGap(b: Board, l: Line, p: Player)
    requires Abs(LineSum(b, l)) == 2 && l != Anti
    ensures Index(MoveFor(b, l)) in Cells(l) && b[Index(MoveFor(b, l))] == 0
    ensures 0 !in LineValues(b[Index(MoveFor(b, l)) := p], l)
    ensures LineSum(b[Index(MoveFor(b, l)) := p], l) == LineSum(b, l) + p
  {
    MoveForOnLine(b, l);
    var z := FirstZero(LineValues(b, l));
    WriteOnLine(b, l, z, p);
    FillGap(LineValues(b, l), z, p);
  }

  /** When the first opponent line of two in scan order is a row, column or
      diagonal, simulate_action plays that line's empty cell (a legal move),
      after which the line holds no gap and sums to the opponent's single
      mark. A later opponent line of two is not looked at. */
  lemma SimulateActionBlocks(s: GameState, pick: nat, k: nat)
    requires Threat(s.board, -2 * (s.player as int)) == Some(k) && ScanOrder[k] != Anti
    ensures SimulateAction(s, pick) == Some(TakeAction(s, MoveFor(s.board, ScanOrder[k])))
    ensures MoveFor(s.board, ScanOrder[k]) in PossibleActions(s.board)
    ensures 0 !in LineValues(SimulateAction(s, pick).value.board, ScanOrder[k])
    ensures LineSum(SimulateAction(s, pick).value.board, ScanOrder[k]) == -(s.player as int)
  {
    var l := ScanOrder[k];
    MoveForFillsGap(s.board, l, s.player);
    assert TakeAction(s, MoveFor(s.board, l)).board == s.board[Index(MoveFor(s.board, l)) := s.player];
  }

  /** With no opponent line of two and the first own line of two in scan
      order a row, column or diagonal, simulate_action completes that line
      and the game is over. */
  lemma SimulateActionWins(s: GameState, pick: nat, k: nat)
    requires Threat(s.board, -2 * (s.player as int)).None?
    requires Threat(s.board, 2 * (s.player as int)) == Some(k) && ScanOrder[k] != Anti
    ensures SimulateAction(s, pick) == Some(TakeAction(s, MoveFor(s.board, ScanOrder[k])))
    ensures Complete(SimulateAction(s, pick).value.board, ScanOrder[k])
    ensures IsTerminal(SimulateAction(s, pick).value)
  {
    var l := ScanOrder[k];
    MoveForFillsGap(s.board, l, s.player);
    var b' := TakeAction(s, MoveFor(s.board, l)).board;
    assert b' == s.board[Index(MoveFor(s.board, l)) := s.player];
    assert Complete(b', l);
  }

  /** The three branches of simulate_action, on every board: the first
      opponent line of two in scan order is answered with `MoveFor`'s cell for
      that line, else the first own line of two the same way, else the move is
      simulate_random_action's. */
  lemma SimulateActionBranches(s: GameState, pick: nat)
    ensures var block := Threat(s.board, -2 * (s.player as int));
      block.Some? ==>
        Abs(LineSum(s.board, ScanOrder[block.value])) == 2
        && SimulateAction(s, pick) == Some(TakeAction(s, MoveFor(s.board, ScanOrder[block.value])))
    ensures var block := Threat(s.board, -2 * (s.player as int));
      var win := Threat(s.board, 2 * (s.player as int));
      block.None? && win.Some? ==>
        Abs(LineSum(s.board, ScanOrder[win.value])) == 2
        && SimulateAction(s, pick) == Some(TakeAction(s, MoveFor(s.board, ScanOrder[win.value])))
    ensures Threat(s.board, -2 * (s.player as int)).None? && Threat(s.board, 2 * (s.player as int)).None? ==>
      SimulateAction(s, pick) == SimulateRandomAction(s, pick)
  {
  }

  /** On every board, the heuristic's anti-diagonal move is (k, k) for the
      gap's position k along the line, and that is the gap only when k == 1,
      the centre. */
  lemma AntiMoveIsDiagonalCell(b: Board)
    requires Abs(LineSum(b, Anti)) == 2
    ensures 0 in LineValues(b, Anti)
    ensures var k := FirstZero(LineValues(b, Anti));
      && MoveFor(b, Anti) == Action(k, k)
      && (Index(MoveFor(b, Anti)) == Cells(Anti)[k] <==> k == 1)
  {
    TwoInLineHasGap(b, Anti);
  }

  /** A position reached in legal play (X to move, three marks each):
      O  X  .
      X  O  .
      O  .  X
      O threatens only the anti-diagonal, whose gap is (0,2). */
  const AntiThreatState: GameState := GameState([-1, 1, 0, 1, -1, 0, -1, 0, 1], 1)

  lemma AntiThreatIsFirst()
    ensures Threat(AntiThreatState.board, -2) == Some(7)
  {
    var b := AntiThreatState.board;
    assert LineSum(b, Anti) == -2;
    assert ThreatFrom(b, -2, 7) == Some(7);
    assert LineSum(b, Diag) == -1 && LineSum(b, Col(2)) == 1 && LineSum(b, Row(2)) == 0;
    assert ThreatFrom(b, -2, 4) == Some(7);
    assert LineSum(b, Col(1)) == 0 && LineSum(b, Row(1)) == 0;
    assert LineSum(b, Col(0)) == -1 && LineSum(b, Row(0)) == 0;
  }

  lemma AntiMoveIsCorner()
    ensures MoveFor(AntiThreatState.board, Anti) == Action(0, 0)
  {
    var b := AntiThreatState.board;
    assert LineValues(b, Anti) == [0, -1, -1];
  }

  /** In that position simulate_action writes X over O's mark at (0,0) and
      leaves the anti-diagonal's gap (0,2) open. */
  lemma AntiDiagonalBlockMisses()
    ensures Threat(AntiThreatState.board, -2) == Some(7)
    ensures SimulateAction(AntiThreatState, 0) == Some(TakeAction(AntiThreatState, Action(0, 0)))
    ensures AntiThreatState.board[0] == -1
    ensures 0 in LineValues(TakeAction(AntiThreatState, Action(0, 0)).board, Anti)
  {
    AntiThreatIsFirst();
    AntiMoveIsCorner();
    var s := AntiThreatState;
    assert -2 * (s.player as int) == -2;
    assert ScanOrder[7] == Anti;
    var b' := TakeAction(s, Action(0, 0)).board;
    assert LineValues(b', Anti) == [b'[2], b'[4], b'[6]];
  }

  /** The evident intent for the diagonals: write the empty cell of the line,
      (k, k) on the diagonal and (k, 2 - k) on the anti-diagonal. */
  function IntendedMoveFor(b: Board, l: Line): Action
    requires Abs(LineSum(b, l)) == 2
  {
    if l == Anti then
      TwoInLineHasGap(b, l);
      var k := FirstZero(LineValues(b, l));
      Action(k, 2 - k)
    else
      MoveFor(b, l)
  }

  /** The corrected move is the line's cell at the gap position, on every line. */
  lemma IntendedMoveOnLine(b: Board, l: Line)
    requires Abs(LineSum(b, l)) == 2
    ensures 0 in LineValues(b, l)
    ensures Index(IntendedMoveFor(b, l)) == Cells(l)[FirstZero(LineValues(b, l))]
  {
    TwoInLineHasGap(b, l);
    if l != Anti {
      MoveForOnLine(b, l);
    }
  }

  /** The corrected move fills the threatened line's empty cell on every line,
      the anti-diagonal included. */
  lemma IntendedMoveFillsGap(b: Board, l: Line, p: Player)
    requires Abs(LineSum(b, l)) == 2
    ensures Index(IntendedMoveFor(b, l)) in Cells(l) && b[Index(IntendedMoveFor(b, l))] == 0
    ensures 0 !in LineValues(b[Index(IntendedMoveFor(b, l)) := p], l)
    ensures LineSum(b[Index(IntendedMoveFor(b, l)) := p], l) == LineSum(b, l) + p
  {
    IntendedMoveOnLine(b, l);
    var z := FirstZero(LineValues(b, l));
    WriteOnLine(b, l, z, p);
    FillGap(LineValues(b, l), z, p);
  }

  /** The corrected heuristic removes the threat it answers: on the first
      opponent line of two in scan order, the anti-diagonal included, it plays
      the line's empty cell, leaving the line with no gap. A later opponent
      line of two is not looked at. */
  lemma IntendedSimulateActionBlocks(s: GameState, pick: nat, k: nat)
    requires Threat(s.board, -2 * (s.player as int)) == Some(k)
    ensures IntendedSimulateAction(s, pick) == Some(TakeAction(s, IntendedMoveFor(s.board, ScanOrder[k])))
    ensures IntendedMoveFor(s.board, ScanOrder[k]) in PossibleActions(s.board)
    ensures 0 !in LineValues(IntendedSimulateAction(s, pick).value.board, ScanOrder[k])
    ensures LineSum(IntendedSimulateAction(s, pick).value.board, ScanOrder[k]) == -(s.player as int)
  {
    var l := ScanOrder[k];
    IntendedMoveFillsGap(s.board, l, s.player);
    assert TakeAction(s, IntendedMoveFor(s.board, l)).board
      == s.board[Index(IntendedMoveFor(s.board, l)) := s.player];
  }

  /** With nothing to block, the corrected heuristic completes the first own
      line of two in scan order, the anti-diagonal included, and ends the
      game. */
  lemma IntendedSimulateActionWins(s: GameState, pick: nat, k: nat)
    requires Threat(s.board, -2 * (s.player as int)).None?
    requires Threat(s.board, 2 * (s.player as int)) == Some(k)
    ensures IntendedSimulateAction(s, pick) == Some(TakeAction(s, IntendedMoveFor(s.board, ScanOrder[k])))
    ensures Complete(IntendedSimulateAction(s, pick).value.board, ScanOrder[k])
    ensures IsTerminal(IntendedSimulateAction(s, pick).value)
  {
    var l := ScanOrder[k];
    IntendedMoveFillsGap(s.board, l, s.player);
    var b' := TakeAction(s, IntendedMoveFor(s.board, l)).board;
    assert b' == s.board[Index(IntendedMoveFor(s.board, l)) := s.player];
    assert Complete(b', l);
  }
}

=== FILE: tree_invariants.dfy ===
/** The invariants every search tree the engine builds keeps, and the proofs
    that expansion and backpropagation preserve them. */
module TreeInvariants {
  import opened Wrappers
  import opened TicTacToe
  import opened SearchTree

  function VisitsOf(t: Tree, i: nat): nat
  {
    if i < |t.nodes| then t.nodes[i].visits else 0
  }

  /** The total visit count of the listed nodes. */
  function SumVisits(t: Tree, ids: seq<nat>): nat
  {
    if |ids| == 0 then 0
    else SumVisits(t, ids[..|ids| - 1]) + VisitsOf(t, ids[|ids| - 1])
  }

  /** The total visit count of node `i`'s children. */
  function ChildVisits(t: Tree, i: nat): nat
    requires i < |t.nodes|
  {
    SumVisits(t, t.nodes[i].children)
  }

  /** Parent and child links agree, parents precede children, and children are
      listed in creation order (so without repetition). */
  predicate LinksOk(t: Tree, i: nat)
    requires i < |t.nodes|
  {
    var n := t.nodes[i];
    && (n.parent.Some? ==> n.parent.value < i && i in t.nodes[n.parent.value].children)
    && (forall j :: 0 <= j < |n.children| ==>
          i < n.children[j] < |t.nodes| && t.nodes[n.children[j]].parent == Some(i))
    && (forall j, k :: 0 <= j < k < |n.children| ==> n.children[j] < n.children[k])
  }

  /** The three buckets add up to the visits, and a node has at least as many
      visits as its children together. */
  predicate CountersOk(t: Tree, i: nat)
    requires i < |t.nodes|
  {
    var n := t.nodes[i];
    n.wins + n.draws + n.losses == n.visits && ChildVisits(t, i) <= n.visits
  }

  /** One child per explored action, and only legal actions are explored. */
  predicate ExpansionOk(n: Node)
  {
    |n.children| == |n.explored|
    && forall a :: a in n.explored ==> a in PossibleActions(n.state.board)
  }

  /** Each child holds the state after some explored action. */
  predicate ChildrenFromExplored(t: Tree, i: nat)
    requires i < |t.nodes|
  {
    var n := t.nodes[i];
    forall j :: 0 <= j < |n.children| ==>
      n.children[j] < |t.nodes|
      && exists a :: a in n.explored && t.nodes[n.children[j]].state == TakeAction(n.state, a)
  }

  /** Each explored action has a child holding the state after it. */
  predicate ExploredHasChild(t: Tree, i: nat)
    requires i < |t.nodes|
  {
    var n := t.nodes[i];
    forall a :: a in n.explored ==>
      exists j :: 0 <= j < |n.children| && n.children[j] < |t.nodes|
        && t.nodes[n.children[j]].state == TakeAction(n.state, a)
  }

  /** No two children hold the same state. */
  predicate ChildStatesDistinct(t: Tree, i: nat)
    requires i < |t.nodes|
  {
    var cs := t.nodes[i].children;
    forall j, k :: 0 <= j < k < |cs| && cs[j] < |t.nodes| && cs[k] < |t.nodes| ==>
      t.nodes[cs[j]].state != t.nodes[cs[k]].state
  }

  /** action_counts and children correspond one to one: together the three
      say no action has been expanded twice and none is missing a child. */
  predicate ChildrenMatchExplored(t: Tree, i: nat)
    requires i < |t.nodes|
  {
    ChildrenFromExplored(t, i) && ExploredHasChild(t, i) && ChildStatesDistinct(t, i)
  }

  /** `c` is the state after one legal move from `p`. */
  predicate OneMoveFrom(p: GameState, c: GameState)
  {
    exists a :: a in PossibleActions(p.board) && c == TakeAction(p, a)
  }

  predicate MoveOk(t: Tree, i: nat)
    requires i < |t.nodes|
  {
    var n := t.nodes[i];
    n.parent.Some? && n.parent.value < |t.nodes| ==>
      OneMoveFrom(t.nodes[n.parent.value].state, n.state)
  }

  predicate NodeOk(t: Tree, i: nat)
    requires i < |t.nodes|
  {
    LinksOk(t, i) && CountersOk(t, i) && ExpansionOk(t.nodes[i]) && MoveOk(t, i)
  }

  predicate WellFormed(t: Tree)
  {
    && (forall i :: 0 <= i < |t.nodes| ==> NodeOk(t, i))
    && (forall i :: 0 <= i < |t.nodes| ==> ChildrenMatchExplored(t, i))
  }

  /** Every node with a parent, except possibly `c`, has been visited. */
  predicate VisitedExcept(t: Tree, c: nat)
  {
    forall i :: 0 <= i < |t.nodes| && i != c && t.nodes[i].parent.Some? ==> t.nodes[i].visits >= 1
  }

  /** The trees the engine holds between iterations: well formed, and every
      node below a root backpropagated at least once. */
  predicate Valid(t: Tree)
  {
    WellFormed(t) && VisitedExcept(t, |t.nodes|)
  }

  // ---------------------------------------------------------------------------
  // Basic consequences
  // ---------------------------------------------------------------------------

  lemma WellFormedParents(t: Tree)
    requires WellFormed(t)
    ensures ParentsPrecede(t)
  {
    forall i | 0 <= i < |t.nodes| && t.nodes[i].parent.Some?
      ensures t.nodes[i].parent.value < i
    {
      assert NodeOk(t, i);
    }
  }

  /** A fresh single-node tree (MCTSNode(state)) is valid. */
  lemma NewTreeValid(s: GameState)
    ensures Valid(NewTree(s))
  {
    var t := NewTree(s);
    assert NodeOk(t, 0) && ChildrenMatchExplored(t, 0);
  }

  /** A child is one move further on, so it has one empty cell fewer. */
  lemma ChildHasFewerEmptyCells(t: Tree, i: nat, j: nat)
    requires WellFormed(t) && i < |t.nodes| && j < |t.nodes[i].children|
    ensures t.nodes[i].children[j] < |t.nodes|
    ensures t.nodes[t.nodes[i].children[j]].parent == Some(i)
    ensures EmptyCount(t.nodes[t.nodes[i].children[j]].state.board) + 1 == EmptyCount(t.nodes[i].state.board)
    ensures t.nodes[t.nodes[i].children[j]].state.player == Opponent(t.nodes[i].state.player)
  {
    assert NodeOk(t, i);
    assert LinksOk(t, i);
    var c := t.nodes[i].children[j];
    assert NodeOk(t, c);
    assert MoveOk(t, c);
    var p := t.nodes[i].state;
    assert OneMoveFrom(p, t.nodes[c].state);
    var a :| a in PossibleActions(p.board) && t.nodes[c].state == TakeAction(p, a);
    TakeActionRemovesAction(p, a);
  }

  /** The actions of a legal-move list are distinct, so it has as many
      elements as its set. */
  lemma {:induction false} DistinctActionsCard(acts: seq<Action>)
    requires forall i, j :: 0 <= i < j < |acts| ==> Index(acts[i]) < Index(acts[j])
    ensures |set a | a in acts| == |acts|
  {
    if |acts| > 0 {
      var init := acts[..|acts| - 1];
      var last := acts[|acts| - 1];
      DistinctActionsCard(init);
      assert acts == init + [last];
      assert (set a | a in acts) == (set a | a in init) + {last};
      assert last !in (set a | a in init) by {
        forall j | 0 <= j < |init|
          ensures init[j] != last
        {
          assert Index(acts[j]) < Index(acts[|acts| - 1]);
        }
      }
    }
  }

  lemma {:induction false} SubsetCard(a: set<Action>, b: set<Action>)
    requires a <= b
    decreases a
    ensures |a| <= |b|
  {
    if a != {} {
      var x :| x in a;
      SubsetCard(a - {x}, b - {x});
    }
  }

  lemma SubsetSameCard(a: set<Action>, b: set<Action>)
    requires a <= b && |a| == |b|
    ensures a == b
  {
    if a != b {
      var x :| x in b && x !in a;
      SubsetCard(a, b - {x});
    }
  }

  /** With one child per explored legal action, some legal action is still
      unexplored exactly when there are fewer children than legal actions. */
  lemma UnexploredIff(n: Node)
    requires ExpansionOk(n)
    ensures |n.children| <= |PossibleActions(n.state.board)|
    ensures (exists a :: a in PossibleActions(n.state.board) && a !in n.explored)
            <==> |n.children| < |PossibleActions(n.state.board)|
  {
    var acts := PossibleActions(n.state.board);
    var all := set a | a in acts;
    DistinctActionsCard(acts);
    assert n.explored <= all;
    SubsetCard(n.explored, all);
    if |n.explored| == |all| {
      SubsetSameCard(n.explored, all);
    } else {
      assert !(all <= n.explored) by {
        if all <= n.explored {
          SubsetCard(all, n.explored);
        }
      }
      var x :| x in all && x !in n.explored;
      assert x in acts;
    }
  }

  /** len(children) never exceeds len(possible_actions()), and expand()
      succeeds exactly while there are fewer children than legal actions. */
  lemma ExpandableIff(t: Tree, i: nat)
    requires WellFormed(t) && i < |t.nodes|
    ensures |t.nodes[i].children| <= |PossibleActions(t.nodes[i].state.board)|
    ensures Expand(t, i).Some? <==> |t.nodes[i].children| < |PossibleActions(t.nodes[i].state.board)|
  {
    assert NodeOk(t, i);
    UnexploredIff(t.nodes[i]);
  }

  // ---------------------------------------------------------------------------
  // Sums of visits
  // ---------------------------------------------------------------------------

  lemma {:induction false} SumVisitsFrame(t: Tree, t': Tree, ids: seq<nat>)
    requires forall j :: 0 <= j < |ids| ==> VisitsOf(t', ids[j]) == VisitsOf(t, ids[j])
    ensures SumVisits(t', ids) == SumVisits(t, ids)
  {
    if |ids| > 0 {
      SumVisitsFrame(t, t', ids[..|ids| - 1]);
    }
  }

  /** How many of the listed nodes lie on the chain from `id` to its root. */
  function CountOnPath(t: Tree, id: nat, ids: seq<nat>): nat
  {
    if |ids| == 0 then 0
    else CountOnPath(t, id, ids[..|ids| - 1]) + (if IsAncestor(t, ids[|ids| - 1], id) then 1 else 0)
  }

  /** Adding one visit to every node on a chain adds, to any list's total, the
      number of listed nodes on that chain. */
  lemma {:induction false} SumVisitsShift(t: Tree, t': Tree, id: nat, ids: seq<nat>)
    requires forall j :: 0 <= j < |ids| ==>
      VisitsOf(t', ids[j]) == VisitsOf(t, ids[j]) + (if IsAncestor(t, ids[j], id) then 1 else 0)
    ensures SumVisits(t', ids) == SumVisits(t, ids) + CountOnPath(t, id, ids)
  {
    if |ids| > 0 {
      SumVisitsShift(t, t', id, ids[..|ids| - 1]);
    }
  }

  lemma {:induction false} CountNone(t: Tree, id: nat, ids: seq<nat>)
    requires forall j :: 0 <= j < |ids| ==> !IsAncestor(t, ids[j], id)
    ensures CountOnPath(t, id, ids) == 0
  {
    if |ids| > 0 {
      CountNone(t, id, ids[..|ids| - 1]);
    }
  }

  lemma {:induction false} CountOne(t: Tree, id: nat, ids: seq<nat>, j0: nat)
    requires j0 < |ids| && IsAncestor(t, ids[j0], id)
    requires forall j :: 0 <= j < |ids| && j != j0 ==> !IsAncestor(t, ids[j], id)
    ensures CountOnPath(t, id, ids) == 1
  {
    var init := ids[..|ids| - 1];
    if j0 == |ids| - 1 {
      CountNone(t, id, init);
    } else {
      CountOne(t, id, init, j0);
    }
  }

  lemma {:induction false} AncestorTransitive(t: Tree, a: nat, y: nat, x: nat)
    requires IsAncestor(t, a, y) && IsAncestor(t, y, x)
    decreases x
    ensures IsAncestor(t, a, x)
  {
    if y != x {
      AncestorTransitive(t, a, y, t.nodes[x].parent.value);
    }
  }

  /** Two nodes on one chain: the earlier is an ancestor of the later. */
  lemma {:induction false} AncestorChain(t: Tree, y1: nat, y2: nat, x: nat)
    requires IsAncestor(t, y1, x) && IsAncestor(t, y2, x) && y1 <= y2
    decreases x
    ensures IsAncestor(t, y1, y2)
  {
    if y2 != x {
      AncestorIsEarlier(t, y2, x);
      AncestorChain(t, y1, y2, t.nodes[x].parent.value);
    }
  }

  /** Below a strict ancestor `a` of `id`, exactly one child lies on the chain. */
  lemma {:induction false} OneChildOnPath(t: Tree, a: nat, id: nat)
    requires WellFormed(t) && a < |t.nodes| && id < |t.nodes|
    requires IsAncestor(t, a, id) && a != id
    decreases id
    ensures exists j :: 0 <= j < |t.nodes[a].children| && IsAncestor(t, t.nodes[a].children[j], id)
  {
    assert NodeOk(t, id);
    var p := t.nodes[id].parent.value;
    if p == a {
      var j :| 0 <= j < |t.nodes[a].children| && t.nodes[a].children[j] == id;
    } else {
      OneChildOnPath(t, a, p);
      var j :| 0 <= j < |t.nodes[a].children| && IsAncestor(t, t.nodes[a].children[j], p);
      AncestorTransitive(t, t.nodes[a].children[j], p, id);
    }
  }

  /** How backpropagating from `id` changes a node's children's total: by one
      for each strict ancestor of `id`, by nothing elsewhere. */
  lemma ChildVisitsAfterPath(t: Tree, t': Tree, id: nat, a: nat)
    requires WellFormed(t) && a < |t.nodes| && id < |t.nodes| && |t'.nodes| == |t.nodes|
    requires forall k :: 0 <= k < |t.nodes| ==>
      t'.nodes[k].visits == t.nodes[k].visits + (if IsAncestor(t, k, id) then 1 else 0)
    requires t'.nodes[a].children == t.nodes[a].children
    ensures ChildVisits(t', a) == ChildVisits(t, a) + (if IsAncestor(t, a, id) && a != id then 1 else 0)
  {
    var cs := t.nodes[a].children;
    assert NodeOk(t, a);
    SumVisitsShift(t, t', id, cs);
    if IsAncestor(t, a, id) && a != id {
      OneChildOnPath(t, a, id);
      var j0 :| 0 <= j0 < |cs| && IsAncestor(t, cs[j0], id);
      forall j | 0 <= j < |cs| && j != j0
        ensures !IsAncestor(t, cs[j], id)
      {
        if IsAncestor(t, cs[j], id) {
          var lo, hi := if j < j0 then j else j0, if j < j0 then j0 else j;
          AncestorChain(t, cs[lo], cs[hi], id);
          assert NodeOk(t, cs[hi]);
          assert IsAncestor(t, cs[lo], a);
          AncestorIsEarlier(t, cs[lo], a);
        }
      }
      CountOne(t, id, cs, j0);
    } else {
      forall j | 0 <= j < |cs|
        ensures !IsAncestor(t, cs[j], id)
      {
        if IsAncestor(t, cs[j], id) {
          if a == id {
            AncestorIsEarlier(t, cs[j], id);
          } else {
            assert NodeOk(t, cs[j]);
            assert IsAncestor(t, a, cs[j]);
            AncestorTransitive(t, a, cs[j], id);
          }
        }
      }
      CountNone(t, id, cs);
    }
  }

  lemma {:induction false} SumVisitsAtLeast(t: Tree, ids: seq<nat>, j: nat)
    requires j < |ids|
    ensures VisitsOf(t, ids[j]) <= SumVisits(t, ids)
  {
    if j < |ids| - 1 {
      SumVisitsAtLeast(t, ids[..|ids| - 1], j);
    }
  }

  /** In a well-formed tree no node has more visits than its parent. */
  lemma ChildVisitsBounded(t: Tree, c: nat)
    requires WellFormed(t) && c < |t.nodes| && t.nodes[c].parent.Some?
    ensures t.nodes[c].parent.value < |t.nodes|
    ensures t.nodes[c].visits <= t.nodes[t.nodes[c].parent.value].visits
  {
    assert NodeOk(t, c);
    var p := t.nodes[c].parent.value;
    assert NodeOk(t, p);
    var j :| 0 <= j < |t.nodes[p].children| && t.nodes[p].children[j] == c;
    SumVisitsAtLeast(t, t.nodes[p].children, j);
  }

  /** No explored action has two children: a child holding the state after
      an action is the only one. */
  lemma NoActionExpandedTwice(t: Tree, i: nat, a: Action, j: nat, k: nat)
    requires WellFormed(t) && i < |t.nodes|
    requires j < |t.nodes[i].children| && k < |t.nodes[i].children|
    requires t.nodes[i].children[j] < |t.nodes| && t.nodes[i].children[k] < |t.nodes|
    requires t.nodes[t.nodes[i].children[j]].state == TakeAction(t.nodes[i].state, a)
    requires t.nodes[t.nodes[i].children[k]].state == TakeAction(t.nodes[i].state, a)
    ensures j == k
  {
    assert ChildrenMatchExplored(t, i);
  }

  /** The same node fields and child states in `t'` as in `t`. */
  predicate SameAround(t: Tree, t': Tree, i: nat)
    requires i < |t.nodes| <= |t'.nodes|
  {
    && t'.nodes[i].children == t.nodes[i].children
    && t'.nodes[i].explored == t.nodes[i].explored && t'.nodes[i].state == t.nodes[i].state
    && forall x :: 0 <= x < |t.nodes| ==> t'.nodes[x].state == t.nodes[x].state
  }

  lemma FromExploredFrame(t: Tree, t': Tree, i: nat)
    requires i < |t.nodes| <= |t'.nodes| && SameAround(t, t', i) && ChildrenFromExplored(t, i)
    ensures ChildrenFromExplored(t', i)
  {
    var n := t'.nodes[i];
    forall j | 0 <= j < |n.children|
      ensures n.children[j] < |t'.nodes|
      ensures exists a :: a in n.explored && t'.nodes[n.children[j]].state == TakeAction(n.state, a)
    {
      var a :| a in n.explored && t.nodes[n.children[j]].state == TakeAction(n.state, a);
      assert t'.nodes[n.children[j]].state == TakeAction(n.state, a);
    }
  }

  lemma HasChildFrame(t: Tree, t': Tree, i: nat)
    requires i < |t.nodes| <= |t'.nodes| && SameAround(t, t', i) && ExploredHasChild(t, i)
    ensures ExploredHasChild(t', i)
  {
    var n := t'.nodes[i];
    forall a | a in n.explored
      ensures exists j :: (0 <= j < |n.children| && n.children[j] < |t'.nodes|
        && t'.nodes[n.children[j]].state == TakeAction(n.state, a))
    {
      var j :| 0 <= j < |n.children| && n.children[j] < |t.nodes|
        && t.nodes[n.children[j]].state == TakeAction(n.state, a);
      assert t'.nodes[n.children[j]].state == TakeAction(n.state, a);
    }
  }

  lemma DistinctFrame(t: Tree, t': Tree, i: nat)
    requires i < |t.nodes| <= |t'.nodes| && SameAround(t, t', i)
    requires ChildStatesDistinct(t, i) && ChildrenFromExplored(t, i)
    ensures ChildStatesDistinct(t', i)
  {
    var cs := t.nodes[i].children;
    forall j, k | 0 <= j < k < |cs| && cs[j] < |t'.nodes| && cs[k] < |t'.nodes|
      ensures t'.nodes[cs[j]].state != t'.nodes[cs[k]].state
    {
      assert cs[j] < |t.nodes| && cs[k] < |t.nodes|;
    }
  }

  /** The correspondence depends only on the node's own fields and its
      children's states. */
  lemma MatchFrame(t: Tree, t': Tree, i: nat)
    requires i < |t.nodes| <= |t'.nodes| && ChildrenMatchExplored(t, i) && SameAround(t, t', i)
    ensures ChildrenMatchExplored(t', i)
  {
    FromExploredFrame(t, t', i);
    HasChildFrame(t, t', i);
    DistinctFrame(t, t', i);
  }

  /** The facts about the expanded node that a new child relies on. */
  predicate AddChildCase(t: Tree, id: nat, a: Action)
  {
    && WellFormed(t) && id < |t.nodes|
    && a in PossibleActions(t.nodes[id].state.board) && a !in t.nodes[id].explored
  }

  lemma AddChildFromExplored(t: Tree, id: nat, a: Action)
    requires id < |t.nodes| && ChildrenFromExplored(t, id)
    ensures ChildrenFromExplored(AddChild(t, id, a), id)
  {
    var t' := AddChild(t, id, a);
    var n := t.nodes[id];
    var cs' := t'.nodes[id].children;
    forall j | 0 <= j < |cs'|
      ensures cs'[j] < |t'.nodes|
      ensures exists b :: b in n.explored + {a} && t'.nodes[cs'[j]].state == TakeAction(n.state, b)
    {
      if j < |n.children| {
        var c := n.children[j];
        assert cs'[j] == c && c < |t.nodes|;
        var b :| b in n.explored && t.nodes[c].state == TakeAction(n.state, b);
        assert t'.nodes[c].state == t.nodes[c].state;
      } else {
        assert cs'[j] == |t.nodes|;
      }
    }
  }

  lemma AddChildHasChild(t: Tree, id: nat, a: Action)
    requires id < |t.nodes| && ExploredHasChild(t, id)
    ensures ExploredHasChild(AddChild(t, id, a), id)
  {
    var t' := AddChild(t, id, a);
    var n := t.nodes[id];
    var cs' := t'.nodes[id].children;
    forall b | b in n.explored + {a}
      ensures exists j :: (0 <= j < |cs'| && cs'[j] < |t'.nodes|
        && t'.nodes[cs'[j]].state == TakeAction(n.state, b))
    {
      if b == a {
        assert cs'[|n.children|] == |t.nodes|;
      } else {
        var j :| 0 <= j < |n.children| && n.children[j] < |t.nodes|
          && t.nodes[n.children[j]].state == TakeAction(n.state, b);
        var c := n.children[j];
        assert cs'[j] == c;
        assert t'.nodes[c].state == t.nodes[c].state;
      }
    }
  }

  lemma AddChildDistinct(t: Tree, id: nat, a: Action)
    requires id < |t.nodes| && ChildrenFromExplored(t, id) && ChildStatesDistinct(t, id)
    requires a in PossibleActions(t.nodes[id].state.board) && a !in t.nodes[id].explored
    requires forall b :: b in t.nodes[id].explored ==> b in PossibleActions(t.nodes[id].state.board)
    ensures ChildStatesDistinct(AddChild(t, id, a), id)
  {
    var t' := AddChild(t, id, a);
    var n := t.nodes[id];
    var cs' := t'.nodes[id].children;
    forall j, k | 0 <= j < k < |cs'| && cs'[j] < |t'.nodes| && cs'[k] < |t'.nodes|
      ensures t'.nodes[cs'[j]].state != t'.nodes[cs'[k]].state
    {
      var c := n.children[j];
      assert cs'[j] == c && c < |t.nodes|;
      assert t'.nodes[c].state == t.nodes[c].state;
      if k < |n.children| {
        var d := n.children[k];
        assert cs'[k] == d && d < |t.nodes|;
        assert t'.nodes[d].state == t.nodes[d].state;
      } else {
        var b :| b in n.explored && t.nodes[c].state == TakeAction(n.state, b);
        TakeActionDistinct(n.state, a, b);
      }
    }
  }

  /** The expanded node gains the new action and its child together. */
  lemma AddChildMatchAt(t: Tree, id: nat, a: Action)
    requires id < |t.nodes| && ChildrenMatchExplored(t, id) && ExpansionOk(t.nodes[id])
    requires a in PossibleActions(t.nodes[id].state.board) && a !in t.nodes[id].explored
    ensures ChildrenMatchExplored(AddChild(t, id, a), id)
  {
    AddChildHasChild(t, id, a);
    AddChildFromAndDistinct(t, id, a);
  }

  lemma AddChildFromAndDistinct(t: Tree, id: nat, a: Action)
    requires id < |t.nodes| && ChildrenFromExplored(t, id) && ChildStatesDistinct(t, id)
    requires ExpansionOk(t.nodes[id])
    requires a in PossibleActions(t.nodes[id].state.board) && a !in t.nodes[id].explored
    ensures ChildrenFromExplored(AddChild(t, id, a), id)
    ensures ChildStatesDistinct(AddChild(t, id, a), id)
  {
    AddChildFromExplored(t, id, a);
    AddChildDistinct(t, id, a);
  }

  /** Nodes other than the expanded one keep their correspondence. */
  lemma AddChildMatchElsewhere(t: Tree, id: nat, a: Action, i: nat)
    requires id < |t.nodes| && i < |t.nodes| && i != id && ChildrenMatchExplored(t, i)
    ensures ChildrenMatchExplored(AddChild(t, id, a), i)
  {
    assert SameAround(t, AddChild(t, id, a), i);
    MatchFrame(t, AddChild(t, id, a), i);
  }

  /** Adding a child for a legal, unexplored action keeps the correspondence
      at every node. */
  lemma AddChildMatch(t: Tree, id: nat, a: Action, i: nat)
    requires AddChildCase(t, id, a) && i <= |t.nodes|
    ensures i < |AddChild(t, id, a).nodes| && ChildrenMatchExplored(AddChild(t, id, a), i)
  {
    if i == id {
      assert ChildrenMatchExplored(t, id) && NodeOk(t, id);
      AddChildMatchAt(t, id, a);
    } else if i < |t.nodes| {
      assert ChildrenMatchExplored(t, i);
      AddChildMatchElsewhere(t, id, a, i);
    } else {
      var t' := AddChild(t, id, a);
      assert t'.nodes[i].children == [] && t'.nodes[i].explored == {};
    }
  }

  // ---------------------------------------------------------------------------
  // Preservation
  // ---------------------------------------------------------------------------

  /** Adding a child changes no visit count and no children's total: the new
      child has no visits yet. */
  lemma AddChildCounts(t: Tree, id: nat, a: Action)
    requires id < |t.nodes|
    ensures forall i :: 0 <= i < |t.nodes| + 1 ==> VisitsOf(AddChild(t, id, a), i) == VisitsOf(t, i)
    ensures forall i :: 0 <= i < |t.nodes| ==> ChildVisits(AddChild(t, id, a), i) == ChildVisits(t, i)
  {
    var t' := AddChild(t, id, a);
    var c := |t.nodes|;
    forall i | 0 <= i < |t.nodes| + 1
      ensures VisitsOf(t', i) == VisitsOf(t, i)
    {
    }
    forall i | 0 <= i < |t.nodes|
      ensures ChildVisits(t', i) == ChildVisits(t, i)
    {
      var cs := t.nodes[i].children;
      SumVisitsFrame(t, t', cs);
      if i == id {
        assert (cs + [c])[..|cs|] == cs;
      }
    }
  }

  /** The new child is well formed: linked both ways, one legal move on from
      its parent, with empty counters. */
  lemma AddChildNewNodeOk(t: Tree, id: nat, a: Action)
    requires id < |t.nodes| && a in PossibleActions(t.nodes[id].state.board)
    ensures NodeOk(AddChild(t, id, a), |t.nodes|)
  {
    var t' := AddChild(t, id, a);
    assert ChildVisits(t', |t.nodes|) == 0;
    assert OneMoveFrom(t'.nodes[id].state, t'.nodes[|t.nodes|].state);
  }

  /** An old node stays well formed; the expanded node gains its child and
      its explored action together. */
  lemma AddChildOldNodeOk(t: Tree, id: nat, a: Action, i: nat)
    requires id < |t.nodes| && i < |t.nodes| && NodeOk(t, i)
    requires a in PossibleActions(t.nodes[id].state.board) && a !in t.nodes[id].explored
    ensures NodeOk(AddChild(t, id, a), i)
  {
    var t' := AddChild(t, id, a);
    var n := t.nodes[id];
    assert CountersOk(t', i) by {
      AddChildCounts(t, id, a);
    }
    assert ExpansionOk(t'.nodes[i]) by {
      if i == id {
        assert |n.explored + {a}| == |n.explored| + 1;
      }
    }
    assert MoveOk(t', i);
    AddChildLinksOk(t, id, a, i);
  }

  /** An old node's links survive the append: its children keep their
      parent, and the expanded node's new child comes after the others. */
  lemma AddChildLinksOk(t: Tree, id: nat, a: Action, i: nat)
    requires id < |t.nodes| && i < |t.nodes| && LinksOk(t, i)
    ensures LinksOk(AddChild(t, id, a), i)
  {
    var t' := AddChild(t, id, a);
    var cs := t.nodes[i].children;
    assert forall j :: 0 <= j < |cs| ==>
      (t'.nodes[i].children[j] == cs[j] && t'.nodes[cs[j]].parent == t.nodes[cs[j]].parent);
  }

  /** Adding a child for a legal, unexplored action keeps every node well formed. */
  lemma AddChildNodeOk(t: Tree, id: nat, a: Action, i: nat)
    requires WellFormed(t) && id < |t.nodes| && i <= |t.nodes|
    requires a in PossibleActions(t.nodes[id].state.board) && a !in t.nodes[id].explored
    ensures i < |AddChild(t, id, a).nodes| && NodeOk(AddChild(t, id, a), i)
  {
    if i == |t.nodes| {
      AddChildNewNodeOk(t, id, a);
    } else {
      assert NodeOk(t, i);
      AddChildOldNodeOk(t, id, a, i);
    }
  }

  /** Expansion keeps the tree well formed and every count in place; the one
      new node is an unvisited child of the expanded node. */
  lemma ExpandPreserves(t: Tree, id: nat)
    requires WellFormed(t) && id < |t.nodes| && Expand(t, id).Some?
    ensures var (t', c) := Expand(t, id).value;
      && WellFormed(t') && Grows(t, t')
      && c == |t.nodes| && t'.nodes[c].parent == Some(id) && t'.nodes[c].visits == 0
      && c in t'.nodes[id].children
      && (forall i :: 0 <= i < |t.nodes| ==> t'.nodes[i].visits == t.nodes[i].visits)
      && (forall i :: 0 <= i < |t.nodes| ==> ChildVisits(t', i) == ChildVisits(t, i))
      && (VisitedExcept(t, |t.nodes|) ==> VisitedExcept(t', c))
  {
    var (t', c) := Expand(t, id).value;
    var n := t.nodes[id];
    var acts := PossibleActions(n.state.board);
    var k := FirstUnexplored(acts, n.explored).value;
    var a := acts[k];
    assert t' == AddChild(t, id, a);
    AddChildCounts(t, id, a);
    forall i | 0 <= i < |t'.nodes|
      ensures NodeOk(t', i) && ChildrenMatchExplored(t', i)
    {
      AddChildNodeOk(t, id, a, i);
      AddChildMatch(t, id, a, i);
    }
    forall i | 0 <= i < |t.nodes|
      ensures t'.nodes[i].visits == t.nodes[i].visits
    {
      assert VisitsOf(t', i) == VisitsOf(t, i);
    }
  }

  /** Backpropagation keeps the tree well formed; it adds one visit to every
      node on the chain from `id` to its root, raises the children's total of
      every strict ancestor of `id` by one, and leaves `id` visited. */
  lemma BackpropagatePreserves(t: Tree, id: nat, result: int)
    requires WellFormed(t) && id < |t.nodes|
    ensures ParentsPrecede(t)
    ensures var t' := Backpropagate(t, id, result);
      && WellFormed(t') && Grows(t, t')
      && (forall k :: 0 <= k < |t.nodes| ==>
            t'.nodes[k].visits == t.nodes[k].visits + (if IsAncestor(t, k, id) then 1 else 0))
      && (forall k :: 0 <= k < |t.nodes| ==>
            ChildVisits(t', k) == ChildVisits(t, k) + (if IsAncestor(t, k, id) && k != id then 1 else 0))
      && (forall k :: 0 <= k < |t.nodes| ==> t'.nodes[k].children == t.nodes[k].children)
      && (VisitedExcept(t, id) ==> VisitedExcept(t', |t.nodes|))
  {
    WellFormedParents(t);
    var t' := Backpropagate(t, id, result);
    forall k | 0 <= k < |t.nodes|
      ensures t'.nodes[k].visits == t.nodes[k].visits + (if IsAncestor(t, k, id) then 1 else 0)
      ensures t'.nodes[k].children == t.nodes[k].children
      ensures t'.nodes[k].parent == t.nodes[k].parent
      ensures t'.nodes[k].state == t.nodes[k].state
      ensures t'.nodes[k].explored == t.nodes[k].explored
      ensures t'.nodes[k].wins + t'.nodes[k].draws + t'.nodes[k].losses ==
              t.nodes[k].wins + t.nodes[k].draws + t.nodes[k].losses + (if IsAncestor(t, k, id) then 1 else 0)
    {
      RecordBuckets(t.nodes[k], result);
    }
    forall k | 0 <= k < |t.nodes|
      ensures ChildVisits(t', k) == ChildVisits(t, k) + (if IsAncestor(t, k, id) && k != id then 1 else 0)
    {
      ChildVisitsAfterPath(t, t', id, k);
    }
    forall k | 0 <= k < |t.nodes|
      ensures ChildrenMatchExplored(t', k)
    {
      assert ChildrenMatchExplored(t, k);
      assert SameAround(t, t', k);
      MatchFrame(t, t', k);
    }
    forall k | 0 <= k < |t.nodes|
      ensures NodeOk(t', k)
    {
      assert NodeOk(t, k);
      assert ChildVisits(t', k) == ChildVisits(t, k) + (if IsAncestor(t, k, id) && k != id then 1 else 0);
    }
  }
}

=== FILE: wrappers.dfy ===
/** Failure-carrying values shared by the game and the search engine. */
module Wrappers {

  /** A value that may be absent; Python's `None` for the game's winner. */
  datatype Option<+T> = None | Some(value: T)

  /** The outcome of an operation that can raise in the original program. */
  datatype Result<+T, +E> = Ok(value: T) | Err(error: E)
}
